=== FILE: README.md ===
# Poker hand evaluator — a Dafny model

This project models the core of a Texas Hold'em hand evaluator.

- `evaluateHand` gives five cards one of ten categories (High Card … Royal Flush) and a vector of tie-break ranks.
- `getBestHand` evaluates every five-card choice from a player's two hole cards and the five community cards and keeps the greatest.
- `judge` compares two players' best hands.
- `parseCard`, `cardToString` and `handRankToString` convert cards and categories to and from text.
- `EvalResult::operator>` and `operator==` order the results.

The modules follow the steps of the C++ code:

| file | module | models |
|---|---|---|
| `types.dfy` | `PokerTypes` | suits, ranks, cards, categories, `EvalResult`; `Card::operator<` |
| `ordering.dfy` | `Ordering` | `EvalResult::operator>` (category, then `std::vector` lexicographic order) and `operator==` |
| `sorting.dfy` | `RankSort` | the rank sort at the start of `evaluateHand` |
| `frequency.dfy` | `Frequency` | the `std::map` count and the reverse-sorted `(count, rank)` vector |
| `evaluator.dfy` | `Evaluator` | `evaluateHand` itself: flush test, straight test, wheel rotation, the category chain |
| `classification.dfy` | `Classification` | a reference categorisation by rank counts, and the theorems tying `evaluateHand` to it |
| `masks.dfy` | `Masks` | the `{0,0,1,1,1,1,1}` mask, `std::next_permutation`, and picking the masked cards |
| `best_hand.dfy` | `BestHand` | `getBestHand` and `judge` |
| `card_text.dfy` | `CardText` | `parseCard`, `cardToString` (with `std::to_string`), `handRankToString` |

Each operation is paired with an independent reference and a lemma connecting the two:

- **Categories.** `evaluateHand`'s if-chain reads the sorted ranks and the frequency list. `Classification.CategoryOf` states the textbook category from the multiset of ranks and whether all suits agree. `EvaluateHandCategory` proves the two agree on every five-card hand.
- **Tie-breaks.** `GroupedValues` and `RankedValues` state the tie-break vector in terms of how often each rank occurs. For example, a full house lists the rank seen three times and then the rank seen twice, and a straight lists 5-4-3-2-A for the wheel.
- **Best hand.** `getBestHand` is proved to meet "no five of the seven cards evaluate higher" (`BestHandBeatsEveryChoice`).
- **next_permutation.** The model's `next_permutation` is the standard algorithm, proved to give the least greater rearrangement (`NextPermutationIsLeast`). On the masks it is proved to visit all 21 masks with two zeros, each exactly once, in increasing order, and then to report `false`.
- **Text.** `cardToString` and `parseCard` are proved to be mutual inverses on canonical cards and tokens.

Modelling choices:

- **Ranks** are unbounded integers. `parseCard`'s fallback gives ranks outside Two..Ace, from -176 to 79 with a signed `char` (for example 49 for "as"), and `(Rank)val` keeps them.
- **Characters** are Dafny `char`s. A character up to 255 stands for a byte. The first character of a rank is read as a `char`, which the model assumes is signed, as on x86-64.
- **The sort.** `std::sort` is not stable. The model sorts by insertion and proves that every rank-descending arrangement of the same cards gives the same result (`AnyDescendingArrangement`), so the unspecified order of equal ranks cannot be observed.
- **The counting map.** The `std::map` keys are modelled in first-occurrence order. This is harmless because the frequency list is unique (`TallyUnique`): any order of keys sorts to the same list.
- **The "nothing kept yet" sentinel.** `getBestHand` starts from a result whose category is the out-of-range value 0. The model writes this as `BestHand.NoneYet`.

## Model

| member | source | states |
|---|---|---|
| PokerTypes.SuitValue | poker/evaluator/poker_evaluator.h:9-14 | each suit's enum value lies in 1..4 |
| PokerTypes.SuitValueInjective | poker/evaluator/poker_evaluator.h:9-14 | suits with the same enum value are the same suit, so suits can only be compared for equality |
| PokerTypes.CardLessIsStrictWeakOrder | poker/evaluator/poker_evaluator.h:38-40 | `Card::operator<` is irreflexive and transitive, and two cards are incomparable exactly when their ranks are equal, whatever their suits |
| PokerTypes.Ordinal | poker/evaluator/poker_evaluator.h:21-32 | every category has an enum value from 1 to 10 |
| PokerTypes.OrdinalsFollowDeclarationOrder | poker/evaluator/poker_evaluator.h:21-32 | the ten categories are listed once each, HighCard = 1 up to RoyalFlush = 10, with values strictly increasing in declaration order |
| Ordering.LexGreater | poker/evaluator/poker_evaluator.h:50 | a proper prefix is smaller than the longer vector, and a vector is never greater than itself or a longer vector it begins |
| Ordering.LexGreaterIffWinsAt | poker/evaluator/poker_evaluator.h:50 | one value vector is greater than another exactly when, after a common prefix, it is larger at the first difference or the other vector has ended |
| Ordering.LexTrichotomy | poker/evaluator/poker_evaluator.h:50 | for two value vectors exactly one holds: greater, smaller or equal |
| Ordering.LexTransitive | poker/evaluator/poker_evaluator.h:50 | vector comparison is transitive |
| Ordering.CategoryDecides | poker/evaluator/poker_evaluator.h:48-49 | for different categories the higher category wins, whatever the value vectors hold |
| Ordering.SameCategoryIsLexicographic | poker/evaluator/poker_evaluator.h:50 | within a category, the first differing tie-break value decides |
| Ordering.Greater | poker/evaluator/poker_evaluator.h:47-51 | a higher category always wins and a lower one always loses, whatever the values; no result is greater than itself |
| Ordering.Same | poker/evaluator/poker_evaluator.h:53-55 | `operator==` holds exactly when the two results are equal values |
| Ordering.GreaterTrichotomy | poker/evaluator/poker_evaluator.h:47-55 | for any two results exactly one holds: greater, smaller or equal |
| Ordering.GreaterTransitive | poker/evaluator/poker_evaluator.h:47-51 | `operator>` is transitive |
| Ordering.NotGreaterTransitive | poker/evaluator/poker_evaluator.h:47-51 | "not greater" is transitive, which is what keeping a running maximum relies on |
| RankSort.InsertByRank | poker/evaluator/poker_evaluator.cpp:6-8 | inserting a card into a rank-descending list keeps it rank-descending and adds exactly that card |
| RankSort.SortByRank | poker/evaluator/poker_evaluator.cpp:6-8 | the sorted cards are a rearrangement of the input, in descending rank order |
| RankSort.SortedRanksDescend | poker/evaluator/poker_evaluator.cpp:6-8 | the ranks of rank-sorted cards descend |
| RankSort.RanksOfPermutation | poker/evaluator/poker_evaluator.cpp:6-8 | rearranging the cards rearranges their ranks |
| RankSort.DescendingUnique | poker/evaluator/poker_evaluator.cpp:6-8 | two descending sequences with the same elements are equal |
| RankSort.SortedRanksUnique | poker/evaluator/poker_evaluator.cpp:6-8 | any two rank-descending arrangements of the same cards have the same rank sequence, so the unstable sort cannot be observed through ranks |
| Frequency.Distinct | poker/evaluator/poker_evaluator.cpp:34-35 | the keys of the counting map are exactly the ranks that occur, each once |
| Frequency.Tally | poker/evaluator/poker_evaluator.cpp:37-38 | each key becomes a `(count, rank)` pair whose count is the number of occurrences of that rank |
| Frequency.TallyTotal | poker/evaluator/poker_evaluator.cpp:34-35 | when every rank is a key, the counts add up to the number of cards |
| Frequency.InsertGroup | poker/evaluator/poker_evaluator.cpp:39 | inserting a pair keeps the list strictly descending by count, then rank, adds exactly that pair, and adds its count to the total |
| Frequency.SortGroups | poker/evaluator/poker_evaluator.cpp:39 | the reverse sort yields a strictly descending rearrangement of the pairs with the same count total |
| Frequency.Freq | poker/evaluator/poker_evaluator.cpp:34-39 | the frequency list has one pair per occurring rank, each with its true count, sorted by count and then rank, both descending |
| Frequency.StrictlyDescendingUnique | poker/evaluator/poker_evaluator.cpp:39 | two strictly descending lists with the same members are equal |
| Frequency.TallyUnique | poker/evaluator/poker_evaluator.cpp:34-39 | a rank list has only one frequency list, so the map's key order cannot be observed |
| Frequency.TallyOfFive | poker/evaluator/poker_evaluator.cpp:45-65 | for five ranks the counts are positive and non-increasing, the ranks distinct, and `freq[1]`, `freq[2]`, `freq[3]` exist whenever the category chain reads them |
| Evaluator.IsFlush | poker/evaluator/poker_evaluator.cpp:10-16 | comparing each card's suit with the first card's holds exactly when all the cards share one suit |
| Evaluator.IsRun | poker/evaluator/poker_evaluator.cpp:18-24 | each rank being one more than the next holds exactly when the ranks count down one at a time from the first |
| Evaluator.Select | poker/evaluator/poker_evaluator.cpp:41-69 | each category carries its fixed number of values, and every value is one of the ranks |
| Evaluator.Rotate | poker/evaluator/poker_evaluator.cpp:31 | rotating the Ace to the back keeps the same ranks |
| Evaluator.Classify | poker/evaluator/poker_evaluator.cpp:18-69 | after sorting, each category carries its fixed number of values, all taken from the ranks |
| Evaluator.EvaluateHand | poker/evaluator/poker_evaluator.cpp:5-71 | the result has the category's number of values, and every value is the rank of one of the five cards |
| Evaluator.SameSuitOfPermutation | poker/evaluator/poker_evaluator.cpp:10-16 | whether all suits agree does not depend on card order |
| Evaluator.AnyDescendingArrangement | poker/evaluator/poker_evaluator.cpp:6-8 | classifying any rank-descending arrangement of the cards gives the same result as `evaluateHand`, whatever order the sort leaves equal ranks in |
| Evaluator.EvaluateHandPermutationInvariant | poker/evaluator/poker_evaluator.cpp:5-71 | the result depends only on which five cards are given, not on their order |
| Classification.QuadTest | poker/evaluator/poker_evaluator.cpp:45 | `freq[0].first == 4` holds exactly when some rank occurs four times |
| Classification.TripsTest | poker/evaluator/poker_evaluator.cpp:57 | `freq[0].first == 3` holds exactly when some rank occurs three times |
| Classification.FullHouseTest | poker/evaluator/poker_evaluator.cpp:48 | counts 3 then 2 hold exactly when one rank occurs three times and another twice |
| Classification.TwoPairTest | poker/evaluator/poker_evaluator.cpp:60 | counts 2 then 2 hold exactly when two different ranks occur twice each |
| Classification.PairTest | poker/evaluator/poker_evaluator.cpp:63 | absent a triple, `freq[0].first == 2` holds exactly when some rank occurs twice |
| Classification.StraightTest | poker/evaluator/poker_evaluator.cpp:18-32 | on descending ranks, "a run, or exactly A-5-4-3-2" is the same as "five consecutive ranks, or the wheel" |
| Classification.WheelTest | poker/evaluator/poker_evaluator.cpp:27-28 | the sorted ranks are A-5-4-3-2 exactly when the ranks are the wheel's, and then they are not a run |
| Classification.RoyalTest | poker/evaluator/poker_evaluator.cpp:43 | for a run, "Ace then King on top" is the same as "the ranks are A-K-Q-J-10" |
| Classification.SelectCategory | poker/evaluator/poker_evaluator.cpp:42-69 | given tests that answer the reference questions, the if-chain's order yields the reference category |
| Classification.ClassifyCategory | poker/evaluator/poker_evaluator.cpp:18-69 | on descending ranks, the category chosen is the reference category of the ranks and the flush flag |
| Classification.EvaluateHandCategory | poker/evaluator/poker_evaluator.cpp:5-71 | every five-card hand gets the reference category of its rank counts and suitedness |
| Classification.SelectValues | poker/evaluator/poker_evaluator.cpp:44-68 | the grouped categories read group ranks from the frequency list, larger group first, then kickers high to low; the five-value categories pass the ranks through |
| Classification.RotatedWheel | poker/evaluator/poker_evaluator.cpp:31 | rotating A-5-4-3-2 gives 5-4-3-2-A |
| Classification.ClassifyValues | poker/evaluator/poker_evaluator.cpp:18-69 | on descending ranks, the values are the group ranks by group size, or all ranks high to low, or 5-4-3-2-A for the wheel |
| Classification.EvaluateHandValues | poker/evaluator/poker_evaluator.cpp:5-71 | the tie-break values of every five-card hand, stated by how often each rank occurs |
| Classification.OnlyRanksAndFlushMatter | poker/evaluator/poker_evaluator.cpp:5-71 | two hands with the same ranks that are both suited, or both not, evaluate equal: suits matter only through the flush test |
| Classification.RoyalFlushHand | poker/evaluator/poker_evaluator.cpp:42-44 | a suited A-K-Q-J-10, in any order, is a Royal Flush with values 14-13-12-11-10 |
| Classification.StraightFlushHand | poker/evaluator/poker_evaluator.cpp:42-44 | a suited run that does not reach the Ace is a Straight Flush |
| Classification.RunIsRoyalOnlyFromTen | poker/evaluator/poker_evaluator.cpp:43 | five consecutive ranks are the royal ranks exactly when the lowest is Ten |
| Classification.WheelHand | poker/evaluator/poker_evaluator.cpp:26-32 | A-5-4-3-2 in any order is a Straight, or a Straight Flush when suited and never Royal, with values 5-4-3-2-A |
| Masks.Pivot | poker/evaluator/poker_evaluator.cpp:91 | the pivot is the last ascent, and everything after it descends |
| Masks.Successor | poker/evaluator/poker_evaluator.cpp:91 | the swap partner is the last element after the pivot that is larger than it |
| Masks.NextPermutation | poker/evaluator/poker_evaluator.cpp:91 | the result is a rearrangement of the input; it reports `false` exactly when the input descends (the last arrangement), and then gives the input reversed, which ascends; when it reports `true`, the new arrangement is lexicographically greater |
| Masks.SwapAndReverse | poker/evaluator/poker_evaluator.cpp:91 | the rearranging step keeps the elements and the entries before the pivot, and puts the successor at the pivot |
| Masks.NonIncreasingIsDescending | poker/evaluator/poker_evaluator.cpp:91 | the neighbour test `next_permutation` uses for "last arrangement" is the same order as the all-pairs `Descending` of the rank sort |
| Masks.NextPermutationIsLeast | poker/evaluator/poker_evaluator.cpp:91 | every greater rearrangement of the input is at least the one `next_permutation` gives, so it is the next arrangement in lexicographic order |
| Masks.Start | poker/evaluator/poker_evaluator.cpp:81 | the starting mask {0,0,1,1,1,1,1} leaves out the first two cards and is the first mask of the walk |
| Masks.StartIsLeast | poker/evaluator/poker_evaluator.cpp:81 | the starting mask is the ascending arrangement of two zeros and five ones, so no arrangement of them comes before it |
| Masks.NextOfZeroMask | poker/evaluator/poker_evaluator.cpp:81-91 | on the mask leaving out cards i and j it moves to the next pair in lexicographic order; from the last mask it reports `false` |
| Masks.PairAtIsIndexed | poker/evaluator/poker_evaluator.cpp:81-91 | the n-th visited mask leaves out a valid pair, and that pair's lexicographic position is n |
| Masks.EveryPairVisited | poker/evaluator/poker_evaluator.cpp:81-91 | every pair of left-out positions is visited, at its lexicographic position |
| Masks.MaskWalk | poker/evaluator/poker_evaluator.cpp:81-91 | each of the first 20 steps moves to the next mask and reports `true`, and the 21st reports `false` |
| Masks.MasksIncrease | poker/evaluator/poker_evaluator.cpp:91 | visited masks increase strictly, so none is visited twice |
| Masks.Pick | poker/evaluator/poker_evaluator.cpp:83-86 | the combination has one card per non-zero mask position |
| Masks.PickZeroMask | poker/evaluator/poker_evaluator.cpp:83-86 | the mask leaving out i and j picks the seven cards minus positions i and j, in order |
| Masks.MaskHasFiveOnes | poker/evaluator/poker_evaluator.cpp:81-86 | every visited mask selects exactly five cards |
| Masks.ZeroPositions | poker/evaluator/poker_evaluator.cpp:84-86 | proof helper: lists, in increasing order, exactly the positions of a mask that the selection loop skips |
| Masks.EveryMaskVisited | poker/evaluator/poker_evaluator.cpp:80-91 | every 0/1 mask over seven cards with five ones is one of the visited masks |
| BestHand.Pool | poker/evaluator/poker_evaluator.cpp:74-75 | the seven cards are the hole cards followed by the community cards, cut at seven |
| BestHand.MaskHand | poker/evaluator/poker_evaluator.cpp:83-87 | the n-th iteration evaluates the seven cards minus one valid pair of positions |
| BestHand.NoneYetIsBelowEveryHand | poker/evaluator/poker_evaluator.cpp:77-78 | every evaluation's category is above the sentinel category 0, so the first hand is always kept |
| BestHand.Keep | poker/evaluator/poker_evaluator.cpp:88-90 | after an iteration something is kept; it is the current hand or the old one, and neither of those is greater than it |
| BestHand.Scan | poker/evaluator/poker_evaluator.cpp:82-91 | the loop from iteration n on returns a hand it saw, or the kept one, and none of those is greater |
| BestHand.GetBestHand | poker/evaluator/poker_evaluator.cpp:73-94 | the result is one of the 21 evaluations, and none of them is greater |
| BestHand.BestHandIsFiveOfSeven | poker/evaluator/poker_evaluator.cpp:73-94 | the best hand is the evaluation of the seven cards minus some pair of positions |
| BestHand.FiveOfSevenIsWithout | poker/evaluator/poker_evaluator.cpp:80-86 | any five cards drawn from the seven are the seven minus some pair of positions |
| BestHand.BestHandBeatsEveryChoice | poker/evaluator/poker_evaluator.cpp:73-94 | no five cards drawn from the seven, in any order, evaluate greater than the best hand |
| BestHand.MaximumUnique | poker/evaluator/poker_evaluator.cpp:88-90 | any two attained, unbeaten hands are equal, so which of several equal hands is kept cannot be observed |
| BestHand.Judge | poker/evaluator/poker_evaluator.cpp:96-103 | 1 exactly when A's best hand is greater, -1 exactly when B's is, 0 exactly when they are equal |
| BestHand.JudgeAntisymmetric | poker/evaluator/poker_evaluator.cpp:96-103 | swapping the players negates the verdict |
| BestHand.JudgeSelfTie | poker/evaluator/poker_evaluator.cpp:96-103 | a player against themselves ties |
| CardText.ToUpper | poker/evaluator/poker_evaluator.cpp:125 | a lower-case letter becomes the upper-case letter at the same place in the alphabet; every other character is unchanged |
| CardText.SuitOfLetter | poker/evaluator/poker_evaluator.cpp:126-130 | 'H', 'D', 'C' give their suits, and every other letter gives Spades |
| CardText.SignedChar | poker/evaluator/poker_evaluator.cpp:140 | a byte read as a signed `char` is its two's-complement value: in -128..127 and equal to the byte modulo 256 |
| CardText.RankOf | poker/evaluator/poker_evaluator.cpp:132-142 | "A", "K", "Q", "J" and "10" are Ace, King, Queen, Jack and Ten; anything else is its first character minus '0', and ranks 2..9 come from their digit |
| CardText.ParseCard | poker/evaluator/poker_evaluator.cpp:121-144 | a token shorter than two characters is the Two of Spades; otherwise the suit is read from the last character in either case, and the rank from the rest, which lies in -176..79 when the first character is a byte |
| CardText.SuitLetterCaseInsensitive | poker/evaluator/poker_evaluator.cpp:125 | a lower-case suit letter reads like its upper-case one |
| CardText.RankLetterCaseSensitive | poker/evaluator/poker_evaluator.cpp:134-141 | "AS" is the Ace of Spades, but "as" is the Spade of rank 49 |
| CardText.LenientRanks | poker/evaluator/poker_evaluator.cpp:139-142 | the fallback produces ranks outside Two..Ace: "1H" is rank 1, "xH" rank 72, "0x" the Spade of rank 0 |
| CardText.Digits | poker/evaluator/poker_evaluator.cpp:156 | the decimal digits are non-empty and all digits, with no leading zero; the first digit is '0' only for zero |
| CardText.DecimalString | poker/evaluator/poker_evaluator.cpp:156 | `std::to_string` writes a number in canonical form: a minus sign exactly for negative numbers, then digits with no leading zero; it reads back as the number itself |
| CardText.RankText | poker/evaluator/poker_evaluator.cpp:154-160 | ranks up to 10 are written as their decimal value, 11 to 14 as "J", "Q", "K", "A", and ranks above 14 as nothing |
| CardText.SuitLetter | poker/evaluator/poker_evaluator.cpp:148-153 | each suit is written as one of S, H, D, C, and that letter parses back as the same suit |
| CardText.CardToString | poker/evaluator/poker_evaluator.cpp:146-162 | the text ends with the upper-case suit letter |
| CardText.ParseCardOfCardToString | poker/evaluator/poker_evaluator.cpp:121-162 | a card reads back as itself after being written exactly when its rank is Two..Ace, 0, 1 or -3 |
| CardText.ReadBackFailures | poker/evaluator/poker_evaluator.cpp:121-162 | rank -1 is written "-1" and read back as -3; rank 15 is written as the suit letter alone and read back as the Two of Spades |
| CardText.CardToStringOfParseCard | poker/evaluator/poker_evaluator.cpp:121-162 | every canonical token (rank text "2".."10", "J", "Q", "K", "A" plus an upper-case suit) is written back exactly as read |
| CardText.HandRankName | poker/evaluator/poker_evaluator.cpp:105-118 | each category gets its printed name: "High Card", "One Pair", "Two Pair", "Three of a Kind", "Straight", "Flush", "Full House", "Four of a Kind", "Straight Flush", "Royal Flush" for enum values 1 to 10; none is empty or "Unknown" |
| CardText.HandRankNamesDistinct | poker/evaluator/poker_evaluator.cpp:105-116 | different categories have different names |

## Left out

- `main.cpp` (line splitting, card-count checks, prompts) and the Python bridge and cache are not part of this model. They call the evaluator but hold none of its logic.
- Evaluator.EvaluateHand: requires exactly five cards. Some shorter hands make the C++ read out of range, which is undefined behaviour: A-5-4-3 reaches `cards[4]`, and four equal ranks read `freq[1]`. Callers always pass five.
- BestHand.GetBestHand: requires at least seven cards in total. With fewer, the C++ reads `allCards[i]` out of range. Cards after the seventh are ignored, as in the C++.
- BestHand.Judge: requires at least seven cards per player, for the same reason.
- CardText.HandRankName: the `default: return "Unknown"` branch is left out. Every enum value is handled, and no other value can reach the switch in the model.
- CardText.ParseCard: characters above 255 are not bytes, and `SignedChar` reads them as their code point; the -176..79 rank bound holds only for a byte. Multi-byte text and locales other than "C" for `toupper` are not modelled.
- CardText.SignedChar: targets where plain `char` is unsigned (such as ARM Linux) are not modelled. There bytes 0x80..0xFF give ranks 80..207, and the -176..79 bound of `ParseCard` does not hold.
- The order in which `std::sort` leaves equal-rank cards, and the key order of `std::map`, are replaced by fixed choices. The lemmas above show that neither can change a result.
- `(Rank)val` is modelled as keeping any integer, which is how an enum with a fixed `int` underlying type behaves; no 32-bit overflow can arise from one character minus '0'.

## Notes on the code

- Only the suit letter is upper-cased (`poker_evaluator.cpp` line 125). A lower-case rank letter falls through to the digit fallback (lines 139-141), so "as" is the Spade of rank 49, not the Ace of Spades (`RankLetterCaseSensitive`).

=== FILE: best_hand.dfy ===
/** `getBestHand` and `judge`: the hole cards and the community cards are
    joined, every choice of five of the first seven is evaluated, and the
    greatest evaluation is kept; `judge` compares two players' best hands
    over the same community cards. */
module BestHand {
  import opened PokerTypes
  import opened Ordering
  import opened Evaluator
  import opened Masks

  /** The running best of the loop. `getBestHand` starts from a result whose
      category is the out-of-range value 0; that sentinel is `NoneYet`. */
  datatype Best = NoneYet | Found(result: EvalResult)

  /** The seven cards the masks select from: the first seven of the hole
      cards followed by the community cards. */
  function Pool(hand: seq<Card>, community: seq<Card>): (pool: seq<Card>)
    requires |hand| + |community| >= 7
    ensures |pool| == 7
    ensures forall k :: 0 <= k < 7 ==> pool[k] == if k < |hand| then hand[k] else community[k - |hand|]
  {
    (hand + community)[..7]
  }

  /** The evaluation of the five cards the `n`-th visited mask picks. */
  function MaskHand(pool: seq<Card>, n: nat): (r: EvalResult)
    requires |pool| == 7 && n < 21
    ensures ValidPair(PairAt(n).0, PairAt(n).1)
    ensures r == EvaluateHand(Without(pool, PairAt(n).0, PairAt(n).1))
  {
    PairAtIsIndexed(n);
    PickZeroMask(pool, PairAt(n).0, PairAt(n).1);
    EvaluateHand(Pick(pool, MaskAt(n)))
  }

  /** The update of the loop body: the first hand is taken, and later the
      kept hand is replaced only by a strictly greater one. */
  function Keep(best: Best, current: EvalResult): (b: Best)
    ensures b.Found?
    ensures b.result == current || b == best
    ensures !Greater(current, b.result)
    ensures best.Found? ==> !Greater(best.result, b.result)
  {
    assert best.Found? ==> !(Greater(current, best.result) && Greater(best.result, current)) by {
      if best.Found? {
        GreaterTrichotomy(current, best.result);
      }
    }
    if best.NoneYet? || Greater(current, best.result) then Found(current) else best
  }

  /** `NoneYet` stands for the result of category 0 the loop starts
      from. Every evaluation has a category of at least 1, so it is above
      the sentinel, and the first hand is always kept. */
  lemma NoneYetIsBelowEveryHand(current: EvalResult)
    ensures Ordinal(current.handRank) > 0
    ensures Keep(NoneYet, current) == Found(current)
  {
  }

  /** The `do ... while (next_permutation(...))` loop from the `n`-th
      mask `p` on, with the best hand so far. The result is a hand seen by
      the loop (from mask `n` on, or the one kept so far), and neither any
      of those masks' hands nor the kept one is greater. */
  function Scan(pool: seq<Card>, p: seq<int>, n: nat, best: Best): (r: EvalResult)
    requires |pool| == 7 && n < 21 && p == MaskAt(n)
    ensures (exists m :: n <= m < 21 && r == MaskHand(pool, m)) || (best.Found? && r == best.result)
    ensures forall m :: n <= m < 21 ==> !Greater(MaskHand(pool, m), r)
    ensures best.Found? ==> !Greater(best.result, r)
    decreases 21 - n
  {
    MaskHasFiveOnes(n);
    var current := EvaluateHand(Pick(pool, p));
    var kept := Keep(best, current);
    MaskWalk(n);
    var next := NextPermutation(p);
    if next.1 then
      var r := Scan(pool, next.0, n + 1, kept);
      ScanStep(pool, n, best, r);
      r
    else
      LastStep(pool, best);
      kept.result
  }

  /** The last iteration, after which `next_permutation` reports `false`. */
  lemma LastStep(pool: seq<Card>, best: Best)
    requires |pool| == 7
    ensures var r := Keep(best, MaskHand(pool, 20)).result;
      && ((exists m :: 20 <= m < 21 && r == MaskHand(pool, m)) || (best.Found? && r == best.result))
      && (forall m :: 20 <= m < 21 ==> !Greater(MaskHand(pool, m), r))
      && (best.Found? ==> !Greater(best.result, r))
  {
    var r := Keep(best, MaskHand(pool, 20)).result;
    if best.NoneYet? || r != best.result {
      assert 20 <= 20 < 21 && r == MaskHand(pool, 20);
    }
    forall m | 20 <= m < 21
      ensures !Greater(MaskHand(pool, m), r)
    {
      assert m == 20;
    }
  }

  /** One loop iteration: what holds of the rest of the loop after
      iteration `n + 1` extends to iteration `n`. */
  lemma ScanStep(pool: seq<Card>, n: nat, best: Best, r: EvalResult)
    requires |pool| == 7 && n < 20
    requires (exists m :: n + 1 <= m < 21 && r == MaskHand(pool, m)) || r == Keep(best, MaskHand(pool, n)).result
    requires forall m :: n + 1 <= m < 21 ==> !Greater(MaskHand(pool, m), r)
    requires !Greater(Keep(best, MaskHand(pool, n)).result, r)
    ensures (exists m :: n <= m < 21 && r == MaskHand(pool, m)) || (best.Found? && r == best.result)
    ensures forall m :: n <= m < 21 ==> !Greater(MaskHand(pool, m), r)
    ensures best.Found? ==> !Greater(best.result, r)
  {
    var current := MaskHand(pool, n);
    var kept := Keep(best, current);
    forall m | n <= m < 21
      ensures !Greater(MaskHand(pool, m), r)
    {
      if m == n {
        NotGreaterTransitive(current, kept.result, r);
      }
    }
    if best.Found? {
      NotGreaterTransitive(best.result, kept.result, r);
    }
    if r == kept.result && kept.result == current {
      assert n <= n < 21 && r == MaskHand(pool, n);
    }
  }

  /** `getBestHand`: the greatest evaluation over the 21 five-card choices
      from the first seven cards. */
  function GetBestHand(hand: seq<Card>, community: seq<Card>): (r: EvalResult)
    requires |hand| + |community| >= 7
    ensures exists m :: 0 <= m < 21 && r == MaskHand(Pool(hand, community), m)
    ensures forall m :: 0 <= m < 21 ==> !Greater(MaskHand(Pool(hand, community), m), r)
  {
    Scan(Pool(hand, community), Start(), 0, NoneYet)
  }

  /** The best hand is the evaluation of five of the seven cards. */
  lemma BestHandIsFiveOfSeven(hand: seq<Card>, community: seq<Card>)
    requires |hand| + |community| >= 7
    ensures exists i, j :: ValidPair(i, j) &&
              GetBestHand(hand, community) == EvaluateHand(Without(Pool(hand, community), i, j))
  {
    var pool := Pool(hand, community);
    var r := GetBestHand(hand, community);
    var m :| 0 <= m < 21 && r == MaskHand(pool, m);
    var i, j := PairAt(m).0, PairAt(m).1;
    assert ValidPair(i, j);
    assert r == EvaluateHand(Without(pool, i, j));
  }

  lemma SizeOfDifference<T>(big: multiset<T>, small: multiset<T>)
    requires small <= big
    ensures big == small + (big - small)
    ensures |big - small| == |big| - |small|
  {
    assert big == small + (big - small);
  }

  lemma SizeTwo<T>(m: multiset<T>)
    requires |m| == 2
    ensures exists x, y :: m == multiset{x, y}
  {
    var x :| x in m;
    var rest := m - multiset{x};
    assert m == rest + multiset{x};
    var y := SizeOne(rest);
    assert m == multiset{x, y};
  }

  /** A multiset of one element. */
  lemma SizeOne<T>(m: multiset<T>) returns (y: T)
    requires |m| == 1
    ensures m == multiset{y}
  {
    y :| y in m;
    assert m == m - multiset{y} + multiset{y};
    assert |m - multiset{y}| == 0;
  }

  lemma TwoMore<T>(big: multiset<T>, small: multiset<T>)
    requires small <= big && |big| == |small| + 2
    ensures exists x, y :: big == small + multiset{x, y}
  {
    SizeOfDifference(big, small);
    SizeTwo(big - small);
  }

  lemma Cancel<T>(a: multiset<T>, b: multiset<T>, c: multiset<T>)
    requires a + c == b + c
    ensures a == b
  {
    assert a == (a + c) - c;
    assert b == (b + c) - c;
  }

  lemma WithoutMultiset(pool: seq<Card>, i: int, j: int)
    requires 0 <= i < j < |pool|
    ensures multiset(pool) == multiset(Without(pool, i, j)) + multiset{pool[i], pool[j]}
  {
    assert pool == pool[..i] + [pool[i]] + pool[i + 1..j] + [pool[j]] + pool[j + 1..];
  }

  lemma TwoPositions(pool: seq<Card>, x: Card, y: Card)
    requires multiset{x, y} <= multiset(pool)
    ensures exists a, b :: 0 <= a < |pool| && 0 <= b < |pool| && a != b && pool[a] == x && pool[b] == y
  {
    assert x in multiset(pool);
    var a :| 0 <= a < |pool| && pool[a] == x;
    var pool' := pool[..a] + pool[a + 1..];
    RemoveAt(pool, a);
    assert y in multiset(pool');
    var b' :| 0 <= b' < |pool'| && pool'[b'] == y;
    var b := if b' < a then b' else b' + 1;
    if b' < a {
      assert pool'[b'] == pool[..a][b'];
    } else {
      assert pool'[b'] == pool[a + 1..][b' - a];
    }
  }

  /** Removing the card at position `a` removes one copy of it. */
  lemma RemoveAt(pool: seq<Card>, a: int)
    requires 0 <= a < |pool|
    ensures multiset(pool[..a] + pool[a + 1..]) == multiset(pool) - multiset{pool[a]}
  {
    assert pool == pool[..a] + [pool[a]] + pool[a + 1..];
  }

  /** Choosing two cards to leave out is choosing five to keep: any five
      cards drawn from the seven are, as a multiset, the seven minus a
      pair of positions. */
  lemma FiveOfSevenIsWithout(pool: seq<Card>, five: seq<Card>)
    requires |pool| == 7 && |five| == 5
    requires multiset(five) <= multiset(pool)
    ensures exists i, j :: ValidPair(i, j) && multiset(Without(pool, i, j)) == multiset(five)
  {
    TwoMore(multiset(pool), multiset(five));
    var x, y :| multiset(pool) == multiset(five) + multiset{x, y};
    OrderedPositions(pool, x, y);
    var i, j :| 0 <= i < j < |pool| && multiset{pool[i], pool[j]} == multiset{x, y};
    WithoutMultiset(pool, i, j);
    Cancel(multiset(Without(pool, i, j)), multiset(five), multiset{x, y});
  }

  /** The two positions found for a pair of cards, in increasing order. */
  lemma OrderedPositions(pool: seq<Card>, x: Card, y: Card)
    requires multiset{x, y} <= multiset(pool)
    ensures exists i, j :: 0 <= i < j < |pool| && multiset{pool[i], pool[j]} == multiset{x, y}
  {
    TwoPositions(pool, x, y);
    var a, b :| 0 <= a < |pool| && 0 <= b < |pool| && a != b && pool[a] == x && pool[b] == y;
    if a < b {
      assert multiset{pool[a], pool[b]} == multiset{x, y};
    } else {
      assert multiset{pool[b], pool[a]} == multiset{x, y};
    }
  }

  /** No five cards drawn from the seven evaluate to more than the best
      hand. */
  lemma BestHandBeatsEveryChoice(hand: seq<Card>, community: seq<Card>, five: seq<Card>)
    requires |hand| + |community| >= 7 && |five| == 5
    requires multiset(five) <= multiset(Pool(hand, community))
    ensures !Greater(EvaluateHand(five), GetBestHand(hand, community))
  {
    var pool := Pool(hand, community);
    FiveOfSevenIsWithout(pool, five);
    var i, j :| ValidPair(i, j) && multiset(Without(pool, i, j)) == multiset(five);
    EvaluateHandPermutationInvariant(Without(pool, i, j), five);
    EveryPairVisited(i, j);
    assert MaskHand(pool, Index(i, j)) == EvaluateHand(five);
  }

  /** Any hand that is attained and not beaten is the same result, so the
      policy of keeping the first of equal hands is unobservable. */
  lemma MaximumUnique(pool: seq<Card>, x: EvalResult, y: EvalResult)
    requires |pool| == 7
    requires exists m :: 0 <= m < 21 && x == MaskHand(pool, m)
    requires exists m :: 0 <= m < 21 && y == MaskHand(pool, m)
    requires forall m :: 0 <= m < 21 ==> !Greater(MaskHand(pool, m), x)
    requires forall m :: 0 <= m < 21 ==> !Greater(MaskHand(pool, m), y)
    ensures x == y
  {
    GreaterTrichotomy(x, y);
  }

  /** `judge`: 1 when A's best hand is greater, -1 when B's is, and 0
      otherwise, which happens exactly when the two are equal. */
  function Judge(a: seq<Card>, b: seq<Card>, community: seq<Card>): (verdict: int)
    requires |a| + |community| >= 7 && |b| + |community| >= 7
    ensures verdict == 1 <==> Greater(GetBestHand(a, community), GetBestHand(b, community))
    ensures verdict == -1 <==> Greater(GetBestHand(b, community), GetBestHand(a, community))
    ensures verdict == 0 <==> GetBestHand(a, community) == GetBestHand(b, community)
  {
    var resA := GetBestHand(a, community);
    var resB := GetBestHand(b, community);
    GreaterTrichotomy(resA, resB);
    if Greater(resA, resB) then 1
    else if Greater(resB, resA) then -1
    else 0
  }

  /** Swapping the players negates the verdict. */
  lemma JudgeAntisymmetric(a: seq<Card>, b: seq<Card>, community: seq<Card>)
    requires |a| + |community| >= 7 && |b| + |community| >= 7
    ensures Judge(a, b, community) == -Judge(b, a, community)
  {
    var v, w := Judge(a, b, community), Judge(b, a, community);
    assert v == 1 || v == -1 || v == 0;
  }

  /** A player tied against themselves. */
  lemma JudgeSelfTie(a: seq<Card>, community: seq<Card>)
    requires |a| + |community| >= 7
    ensures Judge(a, a, community) == 0
  {
  }
}

=== FILE: card_text.dfy ===
/** The text side of the evaluator: `parseCard` reads tokens such as "AS"
    or "10h", `cardToString` writes a card back, and `handRankToString`
    names a category. A token is a `std::string`, so each character is one
    byte. Plain `char` may be signed or unsigned depending on the compiler
    and target; the model assumes a signed `char`, as on x86-64. */
module CardText {
  import opened PokerTypes

  /** `toupper` in the "C" locale: a lower-case letter becomes the
      upper-case letter at the same place in the alphabet, and every other
      character is left alone. */
  function ToUpper(c: char): (u: char)
    ensures 'a' <= c <= 'z' ==> 'A' <= u <= 'Z' && u as int - 'A' as int == c as int - 'a' as int
    ensures !('a' <= c <= 'z') ==> u == c
  {
    if 'a' <= c <= 'z' then (c as int - 32) as char else c
  }

  /** The value of a byte read as a signed `char`: the two's-complement
      reading, in -128..127 and equal to the byte modulo 256, so bytes
      0x80..0xFF are negative. A character above 0xFF is not a byte; it is
      read as its code point. */
  function SignedChar(c: char): (v: int)
    ensures c as int < 256 ==> -128 <= v < 128 && (c as int - v) % 256 == 0
    ensures c as int >= 256 ==> v == c as int
  {
    if 128 <= c as int < 256 then c as int - 256 else c as int
  }

  /** The suit letter, after upper-casing; anything else is Spades. */
  function SuitOfLetter(c: char): (s: Suit)
    ensures s == Hearts <==> c == 'H'
    ensures s == Diamonds <==> c == 'D'
    ensures s == Clubs <==> c == 'C'
    ensures s == Spades <==> c !in "HDC"
  {
    if c == 'S' then Spades
    else if c == 'H' then Hearts
    else if c == 'D' then Diamonds
    else if c == 'C' then Clubs
    else Spades
  }

  /** The letter `cardToString` writes for a suit; `parseCard` reads it
      back as the same suit. */
  function SuitLetter(s: Suit): (l: char)
    ensures l in "SHDC"
    ensures SuitOfLetter(l) == s
  {
    match s
    case Spades => 'S'
    case Hearts => 'H'
    case Diamonds => 'D'
    case Clubs => 'C'
  }

  /** The rank part of a token: the exact strings "A", "K", "Q", "J" and
      "10" are the named ranks; anything else is the first character's
      distance from '0'. */
  function RankOf(rankStr: string): (r: int)
    requires |rankStr| >= 1
    ensures rankStr !in ["A", "K", "Q", "J", "10"] ==> r == SignedChar(rankStr[0]) - '0' as int
    ensures rankStr == "A" ==> r == Ace
    ensures rankStr == "K" ==> r == King
    ensures rankStr == "Q" ==> r == Queen
    ensures rankStr == "J" ==> r == Jack
    ensures rankStr == "10" ==> r == Ten
    ensures 2 <= r <= 9 ==> rankStr[0] == ('0' as int + r) as char
  {
    if rankStr == "A" then Ace
    else if rankStr == "K" then King
    else if rankStr == "Q" then Queen
    else if rankStr == "J" then Jack
    else if rankStr == "10" then Ten
    else SignedChar(rankStr[0]) - '0' as int
  }

  /** `parseCard`: tokens shorter than two characters give the Two of
      Spades; otherwise the last character is the suit, in either case,
      and the rest is the rank. When the first character is a byte, the
      rank lies in -176..79: a signed `char` minus '0'. */
  function ParseCard(token: string): (c: Card)
    ensures |token| < 2 ==> c == Card(Spades, Two)
    ensures |token| >= 2 && token[0] as int < 256 ==> -176 <= c.rank <= 79
    ensures |token| >= 2 ==> (c.suit == Hearts <==> token[|token| - 1] in "hH")
    ensures |token| >= 2 ==> (c.suit == Diamonds <==> token[|token| - 1] in "dD")
    ensures |token| >= 2 ==> (c.suit == Clubs <==> token[|token| - 1] in "cC")
    ensures |token| >= 2 ==> c.rank == RankOf(token[..|token| - 1])
  {
    if |token| < 2 then Card(Spades, Two)
    else Card(SuitOfLetter(ToUpper(token[|token| - 1])), RankOf(token[..|token| - 1]))
  }

  // ---------------------------------------------------------------
  // std::to_string
  // ---------------------------------------------------------------

  function DigitChar(d: int): char
    requires 0 <= d < 10
  {
    ('0' as int + d) as char
  }

  /** The decimal digits of a natural number, most significant first,
      without leading zeros. */
  function Digits(n: nat): (s: string)
    ensures |s| >= 1
    ensures forall k :: 0 <= k < |s| ==> '0' <= s[k] <= '9'
    ensures |s| > 1 ==> s[0] != '0'
    ensures s[0] == '0' <==> n == 0
    decreases n
  {
    if n < 10 then [DigitChar(n)] else Digits(n / 10) + [DigitChar(n % 10)]
  }

  /** Reading a string of digits back as a number. */
  function DigitsValue(s: string): int
  {
    if |s| == 0 then 0 else DigitsValue(s[..|s| - 1]) * 10 + (s[|s| - 1] as int - '0' as int)
  }

  /** Reading a decimal string with an optional minus sign. */
  function DecimalValue(s: string): int
  {
    if |s| > 0 && s[0] == '-' then -DigitsValue(s[1..]) else DigitsValue(s)
  }

  lemma {:induction false} DigitsValueOfDigits(n: nat)
    ensures DigitsValue(Digits(n)) == n
    decreases n
  {
    if n >= 10 {
      var s := Digits(n / 10) + [DigitChar(n % 10)];
      assert s[..|s| - 1] == Digits(n / 10);
      DigitsValueOfDigits(n / 10);
    }
  }

  /** `std::to_string` of an `int`: a minus sign before the digits of a
      negative number. What it writes reads back as the number itself. */
  function DecimalString(n: int): (s: string)
    ensures |s| >= 1
    ensures s[0] == '-' <==> n < 0
    ensures forall k :: (if n < 0 then 1 else 0) <= k < |s| ==> '0' <= s[k] <= '9'
    ensures |s| > (if n < 0 then 1 else 0)
    ensures s[if n < 0 then 1 else 0] == '0' <==> n == 0
    ensures |s| > (if n < 0 then 2 else 1) ==> s[if n < 0 then 1 else 0] != '0'
    ensures DecimalValue(s) == n
  {
    if n < 0 then
      DigitsValueOfDigits(-n);
      assert ("-" + Digits(-n))[1..] == Digits(-n);
      "-" + Digits(-n)
    else
      DigitsValueOfDigits(n);
      Digits(n)
  }

  // ---------------------------------------------------------------
  // cardToString
  // ---------------------------------------------------------------

  /** The rank part `cardToString` writes: ranks up to 10 in decimal, 11
      to 14 as J, Q, K, A, and nothing for anything larger. */
  function RankText(r: int): (s: string)
    ensures r <= 10 ==> DecimalValue(s) == r
    ensures r == 11 ==> s == "J"
    ensures r == 12 ==> s == "Q"
    ensures r == 13 ==> s == "K"
    ensures r == 14 ==> s == "A"
    ensures 2 <= r <= 14 ==> s == RankTexts[r - 2]
    ensures r > 14 ==> s == ""
  {
    if r <= 10 then DecimalString(r)
    else if r == 11 then "J"
    else if r == 12 then "Q"
    else if r == 13 then "K"
    else if r == 14 then "A"
    else ""
  }

  /** `cardToString`: the rank text followed by the upper-case suit
      letter. */
  function CardToString(c: Card): (s: string)
    ensures |s| >= 1 && s[|s| - 1] == SuitLetter(c.suit)
  {
    RankText(c.rank) + [SuitLetter(c.suit)]
  }

  /** A card survives writing and reading back exactly when its rank is
      Two..Ace or one of three others the digit fallback happens to read
      right: 0 and 1 are written as one digit, and every negative rank is
      written with a leading '-', which reads as '-' - '0' = -3. */
  lemma ParseCardOfCardToString(c: Card)
    ensures ParseCard(CardToString(c)) == c <==> c.rank in {-3, 0, 1} || Two <= c.rank <= Ace
  {
    var s := CardToString(c);
    var rankStr := RankText(c.rank);
    assert s[..|s| - 1] == rankStr;
    if c.rank < 0 {
      assert rankStr[0] == '-';
    } else if c.rank <= 9 {
      assert rankStr == [DigitChar(c.rank)];
    } else if c.rank == 10 {
      assert Digits(10) == "10";
    } else if c.rank > 14 {
      assert |s| == 1;
    }
  }

  /** Two ranks that do not survive: -1 is written "-1" and read as -3,
      and 15 is written as the suit letter alone, which is too short and
      reads as the Two of Spades. */
  lemma ReadBackFailures()
    ensures ParseCard(CardToString(Card(Hearts, -1))) == Card(Hearts, -3)
    ensures ParseCard(CardToString(Card(Hearts, 15))) == Card(Spades, Two)
  {
    assert CardToString(Card(Hearts, -1)) == "-1H";
    assert "-1H"[..2] == "-1";
  }

  /** The rank texts `cardToString` writes for Two to Ace. */
  const RankTexts: seq<string> := ["2", "3", "4", "5", "6", "7", "8", "9", "10", "J", "Q", "K", "A"]

  /** A token in the form `cardToString` writes. */
  predicate Canonical(token: string)
  {
    |token| >= 2 && token[|token| - 1] in "SHDC" && token[..|token| - 1] in RankTexts
  }

  /** Every canonical token is written back exactly as it was read. */
  lemma CardToStringOfParseCard(token: string)
    requires Canonical(token)
    ensures CardToString(ParseCard(token)) == token
  {
    var rankStr := token[..|token| - 1];
    var c := ParseCard(token);
    assert token == rankStr + [token[|token| - 1]];
    assert Digits(10) == "10";
  }

  /** The suit letter is read in either case. */
  lemma SuitLetterCaseInsensitive(rankStr: string, letter: char)
    requires |rankStr| >= 1 && 'a' <= letter <= 'z'
    ensures ParseCard(rankStr + [letter]) == ParseCard(rankStr + [ToUpper(letter)])
  {
    assert (rankStr + [letter])[..|rankStr|] == rankStr;
    assert (rankStr + [ToUpper(letter)])[..|rankStr|] == rankStr;
  }

  /** Rank letters are NOT read in either case: "as" is the Spade of rank
      'a' - '0' = 49, while "AS" is the Ace of Spades. */
  lemma RankLetterCaseSensitive()
    ensures ParseCard("AS") == Card(Spades, Ace)
    ensures ParseCard("as") == Card(Spades, 49)
  {
    assert "AS"[..1] == "A";
    assert "as"[..1] == "a";
  }

  /** The fallback reads ranks outside Two..Ace: "1H" has rank 1, "xH"
      rank 72, and "0x" the Spade of rank 0. */
  lemma LenientRanks()
    ensures ParseCard("1H") == Card(Hearts, 1)
    ensures ParseCard("xH") == Card(Hearts, 72)
    ensures ParseCard("0x") == Card(Spades, 0)
  {
    assert "1H"[..1] == "1";
    assert "xH"[..1] == "x";
    assert "0x"[..1] == "0";
  }

  // ---------------------------------------------------------------
  // handRankToString
  // ---------------------------------------------------------------

  /** `handRankToString`. */
  /** The printed names, in the order of the categories' enum values. */
  const HandRankNames: seq<string> := ["High Card", "One Pair", "Two Pair", "Three of a Kind", "Straight",
                                       "Flush", "Full House", "Four of a Kind", "Straight Flush", "Royal Flush"]

  function HandRankName(h: HandRank): (name: string)
    ensures name == HandRankNames[Ordinal(h) - 1]
    ensures name != "Unknown" && |name| > 0
  {
    match h
    case HighCard => "High Card"
    case OnePair => "One Pair"
    case TwoPair => "Two Pair"
    case ThreeOfAKind => "Three of a Kind"
    case Straight => "Straight"
    case Flush => "Flush"
    case FullHouse => "Full House"
    case FourOfAKind => "Four of a Kind"
    case StraightFlush => "Straight Flush"
    case RoyalFlush => "Royal Flush"
  }

  /** Different categories get different names. */
  lemma HandRankNamesDistinct(a: HandRank, b: HandRank)
    ensures HandRankName(a) == HandRankName(b) <==> a == b
  {
  }
}

=== FILE: classification.dfy ===
/** What `evaluateHand` computes, stated independently of how it computes
    it: a reference classification in textbook terms (how often each rank
    occurs, whether the ranks form a run, whether all suits agree), and
    theorems that `EvaluateHand` agrees with it and that its tie-break
    values name the right ranks in the right order. */
module Classification {
  import opened PokerTypes
  import opened RankSort
  import opened Frequency
  import opened Evaluator

  /** Some rank occurs exactly `k` times. */
  ghost predicate HasGroupOf(m: multiset<int>, k: int)
  {
    exists x :: x in m && m[x] == k
  }

  /** Two different ranks occur exactly twice each. */
  ghost predicate HasTwoPairs(m: multiset<int>)
  {
    exists x, y :: x in m && y in m && x != y && m[x] == 2 && m[y] == 2
  }

  /** Five consecutive ranks, highest first, ending at `lo`. */
  function RunFrom(lo: int): seq<int>
  {
    [lo + 4, lo + 3, lo + 2, lo + 1, lo]
  }

  /** The ranks of a royal flush, A-K-Q-J-10. */
  const RoyalRanks: seq<int> := [Ace, King, Queen, Jack, Ten]

  /** Five consecutive ranks, or the wheel A-5-4-3-2. */
  ghost predicate IsStraightRanks(m: multiset<int>)
  {
    (exists lo :: lo in m && m == multiset(RunFrom(lo))) || m == multiset(Wheel)
  }

  /** The reference classification of five ranks, given whether all five
      cards share a suit. The tests are tried strongest first. */
  ghost function CategoryOf(m: multiset<int>, sameSuit: bool): HandRank
  {
    var straight := IsStraightRanks(m);
    if straight && sameSuit then
      (if m == multiset(RoyalRanks) then RoyalFlush else StraightFlush)
    else if HasGroupOf(m, 4) then FourOfAKind
    else if HasGroupOf(m, 3) && HasGroupOf(m, 2) then FullHouse
    else if sameSuit then Flush
    else if straight then Straight
    else if HasGroupOf(m, 3) then ThreeOfAKind
    else if HasTwoPairs(m) then TwoPair
    else if HasGroupOf(m, 2) then OnePair
    else HighCard
  }

  /** The reference category of a five-card hand. */
  ghost function Category(cards: seq<Card>): HandRank
  {
    CategoryOf(multiset(Ranks(cards)), SameSuit(cards))
  }

  // ---------------------------------------------------------------------
  // Counting facts about five ranks

  lemma {:induction false} PairBound(rs: seq<int>, a: int, b: int)
    requires a != b
    ensures multiset(rs)[a] + multiset(rs)[b] <= |rs|
    decreases |rs|
  {
    if |rs| > 0 {
      PairBound(rs[1..], a, b);
      assert rs == [rs[0]] + rs[1..];
      assert multiset(rs) == multiset{rs[0]} + multiset(rs[1..]);
    }
  }

  lemma {:induction false} TripleBound(rs: seq<int>, a: int, b: int, c: int)
    requires a != b && b != c && a != c
    ensures multiset(rs)[a] + multiset(rs)[b] + multiset(rs)[c] <= |rs|
    decreases |rs|
  {
    if |rs| > 0 {
      TripleBound(rs[1..], a, b, c);
      assert rs == [rs[0]] + rs[1..];
      assert multiset(rs) == multiset{rs[0]} + multiset(rs[1..]);
    }
  }

  /** The first entry of a frequency list has the largest count, and the
      second the largest count among the other ranks. */
  lemma TallyMaxima(f: seq<Group>, rs: seq<int>)
    requires IsTally(f, rs) && |f| >= 1
    ensures forall x :: x in rs ==> multiset(rs)[x] <= f[0].count
    ensures |f| >= 2 ==> forall x :: x in rs && x != f[0].rank ==> multiset(rs)[x] <= f[1].count
  {
    TallyShape(f, rs);
    forall x | x in rs
      ensures multiset(rs)[x] <= f[0].count
      ensures |f| >= 2 && x != f[0].rank ==> multiset(rs)[x] <= f[1].count
    {
      var i :| 0 <= i < |f| && f[i].rank == x;
    }
  }

  lemma QuadTest(f: seq<Group>, rs: seq<int>)
    requires IsTally(f, rs) && |rs| == 5
    ensures |f| >= 1
    ensures f[0].count == 4 <==> HasGroupOf(multiset(rs), 4)
  {
    TallyOfFive(f, rs);
    TallyMaxima(f, rs);
    var m := multiset(rs);
    if f[0].count == 4 {
      assert f[0].rank in m;
    }
    if HasGroupOf(m, 4) {
      var x :| x in m && m[x] == 4;
      if f[0].rank != x {
        PairBound(rs, x, f[0].rank);
      }
    }
  }

  lemma TripsTest(f: seq<Group>, rs: seq<int>)
    requires IsTally(f, rs) && |rs| == 5
    ensures |f| >= 1
    ensures f[0].count == 3 <==> HasGroupOf(multiset(rs), 3)
  {
    TallyOfFive(f, rs);
    TallyMaxima(f, rs);
    var m := multiset(rs);
    if f[0].count == 3 {
      assert f[0].rank in m;
    }
    if HasGroupOf(m, 3) {
      var x :| x in m && m[x] == 3;
      if f[0].rank != x {
        PairBound(rs, x, f[0].rank);
      }
    }
  }

  lemma FullHouseTest(f: seq<Group>, rs: seq<int>)
    requires IsTally(f, rs) && |rs| == 5
    ensures |f| >= 1
    ensures (f[0].count == 3 && |f| >= 2 && f[1].count == 2)
            <==> (HasGroupOf(multiset(rs), 3) && HasGroupOf(multiset(rs), 2))
  {
    TallyOfFive(f, rs);
    TallyMaxima(f, rs);
    TripsTest(f, rs);
    var m := multiset(rs);
    if f[0].count == 3 && |f| >= 2 && f[1].count == 2 {
      assert f[1].rank in m;
    }
    if HasGroupOf(m, 3) && HasGroupOf(m, 2) {
      var x :| x in m && m[x] == 3;
      var y :| y in m && m[y] == 2;
      assert f[0].count == 3;
      if f[0].rank != x {
        PairBound(rs, x, f[0].rank);
      }
      assert y in rs;
      var j :| 0 <= j < |f| && f[j].rank == y;
      assert j >= 1;
      PairBound(rs, x, f[1].rank);
    }
  }

  lemma TwoPairTest(f: seq<Group>, rs: seq<int>)
    requires IsTally(f, rs) && |rs| == 5
    ensures |f| >= 1
    ensures (f[0].count == 2 && |f| >= 2 && f[1].count == 2) <==> HasTwoPairs(multiset(rs))
  {
    TallyOfFive(f, rs);
    TallyMaxima(f, rs);
    var m := multiset(rs);
    if f[0].count == 2 && |f| >= 2 && f[1].count == 2 {
      assert f[0].rank in m && f[1].rank in m;
    }
    if HasTwoPairs(m) {
      var x, y :| x in m && y in m && x != y && m[x] == 2 && m[y] == 2;
      if f[0].rank != x && f[0].rank != y {
        TripleBound(rs, x, y, f[0].rank);
      }
      assert f[0].count == 2;
      var other := if f[0].rank == x then y else x;
      assert other in rs;
      var j :| 0 <= j < |f| && f[j].rank == other;
      assert j >= 1;
    }
  }

  lemma PairTest(f: seq<Group>, rs: seq<int>)
    requires IsTally(f, rs) && |rs| == 5
    requires !HasGroupOf(multiset(rs), 3)
    ensures |f| >= 1
    ensures f[0].count == 2 <==> HasGroupOf(multiset(rs), 2)
  {
    TallyOfFive(f, rs);
    TallyMaxima(f, rs);
    TripsTest(f, rs);
    var m := multiset(rs);
    if f[0].count == 2 {
      assert f[0].rank in m;
    }
    if HasGroupOf(m, 2) {
      var x :| x in m && m[x] == 2;
      if f[0].rank != x {
        PairBound(rs, x, f[0].rank);
      }
    }
  }

  // ---------------------------------------------------------------------
  // Straights

  lemma RunIsRunFrom(rs: seq<int>)
    requires |rs| == 5 && IsRun(rs)
    ensures rs == RunFrom(rs[4])
  {
    assert rs[3] == rs[4] + 1;
    assert rs[2] == rs[3] + 1;
    assert rs[1] == rs[2] + 1;
    assert rs[0] == rs[1] + 1;
  }

  lemma RunIsStraight(rs: seq<int>)
    requires |rs| == 5 && IsRun(rs)
    ensures IsStraightRanks(multiset(rs))
  {
    RunIsRunFrom(rs);
    assert rs[4] in multiset(rs);
  }

  /** On descending ranks the wheel multiset has exactly one arrangement. */
  lemma WheelTest(rs: seq<int>)
    requires |rs| == 5 && Descending(rs)
    ensures rs == Wheel <==> multiset(rs) == multiset(Wheel)
    ensures rs == Wheel ==> !IsRun(rs)
  {
    if multiset(rs) == multiset(Wheel) {
      DescendingUnique(rs, Wheel);
    }
  }

  lemma StraightIsRunOrWheel(rs: seq<int>)
    requires |rs| == 5 && Descending(rs)
    requires IsStraightRanks(multiset(rs)) && multiset(rs) != multiset(Wheel)
    ensures IsRun(rs)
  {
    var lo :| lo in multiset(rs) && multiset(rs) == multiset(RunFrom(lo));
    RunFromIsRun(lo);
    DescendingUnique(rs, RunFrom(lo));
  }

  lemma RunFromIsRun(lo: int)
    ensures Descending(RunFrom(lo)) && IsRun(RunFrom(lo))
  {
  }

  /** On descending ranks, `evaluateHand`'s straight test (a run, or
      exactly A-5-4-3-2) is the textbook one. */
  lemma StraightTest(rs: seq<int>)
    requires |rs| == 5 && Descending(rs)
    ensures IsRun(rs) || rs == Wheel <==> IsStraightRanks(multiset(rs))
    ensures rs == Wheel <==> multiset(rs) == multiset(Wheel)
    ensures rs == Wheel ==> !IsRun(rs)
  {
    WheelTest(rs);
    if IsRun(rs) {
      RunIsStraight(rs);
    }
    if IsStraightRanks(multiset(rs)) && multiset(rs) != multiset(Wheel) {
      StraightIsRunOrWheel(rs);
    }
  }

  /** Among runs, `evaluateHand`'s royal test (Ace then King on top) is
      "the ranks are A-K-Q-J-10". */
  lemma RoyalTest(rs: seq<int>)
    requires |rs| == 5 && Descending(rs) && IsRun(rs)
    ensures rs[0] == Ace && rs[1] == King <==> multiset(rs) == multiset(RoyalRanks)
  {
    RunIsRunFrom(rs);
    if multiset(rs) == multiset(RoyalRanks) {
      DescendingUnique(rs, RoyalRanks);
    }
  }

  lemma WheelIsNotRoyal()
    ensures multiset(Wheel) != multiset(RoyalRanks)
  {
    assert King !in multiset(Wheel);
  }

  // ---------------------------------------------------------------------
  // Theorems about Classify

  /** The category `Classify` picks from descending ranks is the reference
      category of those ranks. */
  lemma ClassifyCategory(rs: seq<int>, flush: bool)
    requires |rs| == 5 && Descending(rs)
    ensures Classify(rs, flush).handRank == CategoryOf(multiset(rs), flush)
  {
    var m := multiset(rs);
    var run := IsRun(rs);
    var wheel := !run && rs == Wheel;
    var vals := if wheel then Rotate(rs) else rs;
    var f := Freq(vals);
    StraightTest(rs);
    assert multiset(vals) == m;
    TallyOfFive(f, vals);
    GroupTests(f, vals);
    assert run || wheel ==> (vals[0] == Ace && vals[1] == King <==> m == multiset(RoyalRanks)) by {
      if run {
        RoyalTest(rs);
      }
      if wheel {
        WheelIsNotRoyal();
        assert vals[0] == 5;
      }
    }
    SelectCategory(vals, run || wheel, flush, f, m);
  }

  /** All the count tests of `evaluateHand` on one frequency list. */
  lemma GroupTests(f: seq<Group>, rs: seq<int>)
    requires IsTally(f, rs) && |rs| == 5
    ensures |f| >= 1
    ensures f[0].count == 4 <==> HasGroupOf(multiset(rs), 4)
    ensures f[0].count == 3 <==> HasGroupOf(multiset(rs), 3)
    ensures (f[0].count == 3 && |f| >= 2 && f[1].count == 2)
            <==> (HasGroupOf(multiset(rs), 3) && HasGroupOf(multiset(rs), 2))
    ensures (f[0].count == 2 && |f| >= 2 && f[1].count == 2) <==> HasTwoPairs(multiset(rs))
    ensures !HasGroupOf(multiset(rs), 3) ==> (f[0].count == 2 <==> HasGroupOf(multiset(rs), 2))
  {
    QuadTest(f, rs);
    TripsTest(f, rs);
    FullHouseTest(f, rs);
    TwoPairTest(f, rs);
    if !HasGroupOf(multiset(rs), 3) {
      PairTest(f, rs);
    }
  }

  /** The order of the tests in `evaluateHand` is the order of the
      reference categorisation, once each test is known to answer the
      reference question. */
  lemma SelectCategory(vals: seq<int>, straight: bool, flush: bool, f: seq<Group>, m: multiset<int>)
    requires |vals| == 5 && FiveLayout(f)
    requires forall i :: 0 <= i < |f| ==> f[i].rank in vals
    requires straight == IsStraightRanks(m)
    requires straight ==> (vals[0] == Ace && vals[1] == King <==> m == multiset(RoyalRanks))
    requires f[0].count == 4 <==> HasGroupOf(m, 4)
    requires f[0].count == 3 <==> HasGroupOf(m, 3)
    requires (f[0].count == 3 && |f| >= 2 && f[1].count == 2) <==> (HasGroupOf(m, 3) && HasGroupOf(m, 2))
    requires (f[0].count == 2 && |f| >= 2 && f[1].count == 2) <==> HasTwoPairs(m)
    requires !HasGroupOf(m, 3) ==> (f[0].count == 2 <==> HasGroupOf(m, 2))
    ensures Select(vals, straight, flush, f).handRank == CategoryOf(m, flush)
  {
  }

  /** The tie-break values of the grouped categories, in terms of how
      often each rank occurs: the group ranks come first, larger group
      first and higher rank first among equal groups, then the kickers
      from high to low. */
  ghost predicate GroupedValues(r: EvalResult, m: multiset<int>)
    requires |r.values| == Arity(r.handRank)
  {
    && (r.handRank == FourOfAKind ==>
          m[r.values[0]] == 4 && m[r.values[1]] == 1)
    && (r.handRank == FullHouse ==>
          m[r.values[0]] == 3 && m[r.values[1]] == 2)
    && (r.handRank == ThreeOfAKind ==>
          m[r.values[0]] == 3 && m[r.values[1]] == 1 && m[r.values[2]] == 1
          && r.values[1] > r.values[2])
    && (r.handRank == TwoPair ==>
          m[r.values[0]] == 2 && m[r.values[1]] == 2 && m[r.values[2]] == 1
          && r.values[0] > r.values[1])
    && (r.handRank == OnePair ==>
          m[r.values[0]] == 2 && m[r.values[1]] == 1 && m[r.values[2]] == 1 && m[r.values[3]] == 1
          && r.values[1] > r.values[2] > r.values[3])
  }

  /** The tie-break values of the five-value categories: all five ranks
      from high to low, except that the wheel gives 5-4-3-2-A. */
  ghost predicate RankedValues(r: EvalResult, m: multiset<int>)
  {
    Arity(r.handRank) == 5 ==>
      && multiset(r.values) == m
      && if m == multiset(Wheel) then r.values == WheelValues else Descending(r.values)
  }

  /** The category tests read the frequency list the way `GroupedValues`
      describes, and the other categories pass the ranks through. */
  lemma SelectValues(vals: seq<int>, straight: bool, flush: bool, f: seq<Group>)
    requires |vals| == 5 && IsTally(f, vals)
    ensures FiveLayout(f)
    ensures GroupedValues(Select(vals, straight, flush, f), multiset(vals))
    ensures Arity(Select(vals, straight, flush, f).handRank) == 5 ==>
              Select(vals, straight, flush, f).values == vals
  {
    TallyOfFive(f, vals);
    if |f| >= 2 {
      assert Above(f[0], f[1]);
    }
    if |f| >= 3 {
      assert Above(f[1], f[2]);
    }
    if |f| >= 4 {
      assert Above(f[2], f[3]);
    }
  }

  /** The tie-break values `Classify` builds from descending ranks. */
  lemma ClassifyValues(rs: seq<int>, flush: bool)
    requires |rs| == 5 && Descending(rs)
    ensures GroupedValues(Classify(rs, flush), multiset(rs))
    ensures RankedValues(Classify(rs, flush), multiset(rs))
  {
    var run := IsRun(rs);
    var wheel := !run && rs == Wheel;
    var vals := if wheel then Rotate(rs) else rs;
    assert multiset(vals) == multiset(rs);
    var f := Freq(vals);
    SelectValues(vals, run || wheel, flush, f);
    var r := Classify(rs, flush);
    assert r == Select(vals, run || wheel, flush, f);
    WheelTest(rs);
    if Arity(r.handRank) == 5 {
      if rs == Wheel {
        RotatedWheel();
        assert r.values == WheelValues;
      } else {
        assert r.values == rs;
      }
    }
  }

  /** Rotating the wheel puts the Ace last and keeps its ranks. */
  lemma RotatedWheel()
    ensures Rotate(Wheel) == WheelValues
    ensures multiset(WheelValues) == multiset(Wheel)
  {
    assert Wheel[1..] == [5, 4, 3, 2];
  }

  // ---------------------------------------------------------------------
  // Theorems about EvaluateHand

  /** Sorting keeps the ranks and the suits, so the sorted hand has the
      same reference inputs as the given one. */
  lemma SortedHandFacts(cards: seq<Card>)
    requires |cards| == 5
    ensures |SortByRank(cards)| == 5
    ensures Descending(Ranks(SortByRank(cards)))
    ensures multiset(Ranks(SortByRank(cards))) == multiset(Ranks(cards))
    ensures IsFlush(SortByRank(cards)) <==> SameSuit(cards)
  {
    var sorted := SortByRank(cards);
    SortedRanksDescend(sorted);
    RanksOfPermutation(sorted, cards);
    if SameSuit(sorted) {
      SameSuitOfPermutation(sorted, cards);
    }
    if SameSuit(cards) {
      SameSuitOfPermutation(cards, sorted);
    }
  }

  /** `evaluateHand` assigns every five-card hand its reference category. */
  lemma EvaluateHandCategory(cards: seq<Card>)
    requires |cards| == 5
    ensures EvaluateHand(cards).handRank == Category(cards)
  {
    SortedHandFacts(cards);
    var sorted := SortByRank(cards);
    ClassifyCategory(Ranks(sorted), IsFlush(sorted));
  }

  /** The tie-break values of `evaluateHand`, in terms of how often each
      rank occurs among the five cards (see `GroupedValues` and
      `RankedValues`). */
  lemma EvaluateHandValues(cards: seq<Card>)
    requires |cards| == 5
    ensures GroupedValues(EvaluateHand(cards), multiset(Ranks(cards)))
    ensures RankedValues(EvaluateHand(cards), multiset(Ranks(cards)))
  {
    SortedHandFacts(cards);
    var sorted := SortByRank(cards);
    ClassifyValues(Ranks(sorted), IsFlush(sorted));
  }

  /** Suits matter only through the flush test: two hands with the same
      ranks that are both suited, or both not, evaluate alike. */
  lemma OnlyRanksAndFlushMatter(p: seq<Card>, q: seq<Card>)
    requires |p| == 5 && |q| == 5
    requires multiset(Ranks(p)) == multiset(Ranks(q))
    requires SameSuit(p) == SameSuit(q)
    ensures EvaluateHand(p) == EvaluateHand(q)
  {
    SortedHandFacts(p);
    SortedHandFacts(q);
    DescendingUnique(Ranks(SortByRank(p)), Ranks(SortByRank(q)));
  }

  // ---------------------------------------------------------------------
  // Straights and flushes

  /** The five ranks of the wheel are all different. */
  lemma WheelCounts()
    ensures forall x :: multiset(Wheel)[x] <= 1
  {
  }

  /** Five different ranks form no group. */
  lemma NoGroups(m: multiset<int>)
    requires forall x :: m[x] <= 1
    ensures !HasGroupOf(m, 4) && !HasGroupOf(m, 3) && !HasGroupOf(m, 2) && !HasTwoPairs(m)
  {
  }

  /** A suited A-K-Q-J-10, in any order, is a royal flush whose values
      are the five ranks from high to low. */
  lemma RoyalFlushHand(cards: seq<Card>)
    requires |cards| == 5 && SameSuit(cards)
    requires multiset(Ranks(cards)) == multiset(RoyalRanks)
    ensures EvaluateHand(cards) == EvalResult(RoyalFlush, RoyalRanks)
  {
    var r := EvaluateHand(cards);
    assert r.handRank == RoyalFlush by {
      EvaluateHandCategory(cards);
      RoyalCategory();
    }
    assert multiset(r.values) == multiset(RoyalRanks) && Descending(r.values) by {
      EvaluateHandValues(cards);
      WheelIsNotRoyal();
    }
    RoyalRanksDescend();
    DescendingUnique(r.values, RoyalRanks);
  }

  lemma RoyalCategory()
    ensures CategoryOf(multiset(RoyalRanks), true) == RoyalFlush
  {
    assert RunFrom(10) == RoyalRanks;
    assert 10 in multiset(RoyalRanks);
    assert IsStraightRanks(multiset(RoyalRanks));
  }

  lemma RoyalRanksDescend()
    ensures Descending(RoyalRanks)
  {
    RunFromIsRun(10);
    assert RunFrom(10) == RoyalRanks;
  }

  /** A suited straight with any top card but the Ace is a straight
      flush. */
  lemma StraightFlushHand(cards: seq<Card>, lo: int)
    requires |cards| == 5 && SameSuit(cards)
    requires multiset(Ranks(cards)) == multiset(RunFrom(lo)) && lo != Ten
    ensures EvaluateHand(cards).handRank == StraightFlush
  {
    EvaluateHandCategory(cards);
    RunIsStraightRanks(lo);
    RunIsRoyalOnlyFromTen(lo);
  }

  /** Five consecutive ranks are a straight. */
  lemma RunIsStraightRanks(lo: int)
    ensures IsStraightRanks(multiset(RunFrom(lo)))
  {
    assert lo in multiset(RunFrom(lo));
  }

  /** Five consecutive ranks are the royal ranks only when they run up to
      the Ace. */
  lemma RunIsRoyalOnlyFromTen(lo: int)
    ensures multiset(RunFrom(lo)) == multiset(RoyalRanks) <==> lo == Ten
  {
    if multiset(RunFrom(lo)) == multiset(RoyalRanks) {
      var r := RunFrom(lo);
      assert r[4] in multiset(r) && r[0] in multiset(r);
      assert r[4] in RoyalRanks && r[0] in RoyalRanks;
    } else {
      assert RunFrom(10) == RoyalRanks;
    }
  }

  /** The wheel A-5-4-3-2, in any order, is a straight, or a straight
      flush when suited (never a royal flush), and its values put the Ace
      last: 5-4-3-2-A. */
  lemma WheelHand(cards: seq<Card>)
    requires |cards| == 5
    requires multiset(Ranks(cards)) == multiset(Wheel)
    ensures EvaluateHand(cards).handRank == if SameSuit(cards) then StraightFlush else Straight
    ensures EvaluateHand(cards).values == WheelValues
  {
    WheelHandRank(cards);
    WheelHandValues(cards, EvaluateHand(cards));
  }

  lemma WheelHandRank(cards: seq<Card>)
    requires |cards| == 5
    requires multiset(Ranks(cards)) == multiset(Wheel)
    ensures EvaluateHand(cards).handRank == if SameSuit(cards) then StraightFlush else Straight
  {
    EvaluateHandCategory(cards);
    WheelCategory(SameSuit(cards));
  }

  lemma WheelHandValues(cards: seq<Card>, r: EvalResult)
    requires |cards| == 5 && r == EvaluateHand(cards)
    requires multiset(Ranks(cards)) == multiset(Wheel)
    requires r.handRank == Straight || r.handRank == StraightFlush
    ensures r.values == WheelValues
  {
    assert RankedValues(r, multiset(Ranks(cards))) by {
      EvaluateHandValues(cards);
    }
    WheelValuesOfRanked(r, multiset(Ranks(cards)));
  }

  lemma WheelValuesOfRanked(r: EvalResult, m: multiset<int>)
    requires m == multiset(Wheel) && RankedValues(r, m)
    requires r.handRank == Straight || r.handRank == StraightFlush
    ensures r.values == WheelValues
  {
  }

  /** The wheel's category: a straight, or a straight flush when suited. */
  lemma WheelCategory(sameSuit: bool)
    ensures CategoryOf(multiset(Wheel), sameSuit) == if sameSuit then StraightFlush else Straight
  {
    var m := multiset(Wheel);
    assert IsStraightRanks(m);
    WheelCounts();
    NoGroups(m);
    WheelIsNotRoyal();
  }
}

=== FILE: evaluator.dfy ===
/** `evaluateHand`: five cards are sorted by rank, checked for a flush and a
    straight (the A-5-4-3-2 "wheel" included), counted into a frequency
    list, and given one of ten categories together with the tie-break
    values that order hands of the same category. */
module Evaluator {
  import opened PokerTypes
  import opened RankSort
  import opened Frequency

  /** The flush test: every card has the suit of the first one, which is
      the same as all cards sharing one suit. */
  function IsFlush(cards: seq<Card>): (f: bool)
    ensures f <==> SameSuit(cards)
  {
    FirstSuitTest(cards);
    forall i :: 1 <= i < |cards| ==> cards[i].suit == cards[0].suit
  }

  /** The straight test on ranks sorted high to low: each rank is one
      more than the next, which is the same as the ranks counting down
      one at a time from the first. */
  function IsRun(rs: seq<int>): (r: bool)
    ensures |rs| > 0 ==> (r <==> forall i :: 0 <= i < |rs| ==> rs[i] == rs[0] - i)
  {
    StepsCountDown(rs);
    forall i :: 1 <= i < |rs| ==> rs[i - 1] == rs[i] + 1
  }

  /** Steps of one between neighbours add up to a countdown from the
      first rank. */
  lemma StepsCountDown(rs: seq<int>)
    ensures |rs| > 0 ==> ((forall i :: 1 <= i < |rs| ==> rs[i - 1] == rs[i] + 1)
                          <==> forall i :: 0 <= i < |rs| ==> rs[i] == rs[0] - i)
  {
    if |rs| > 0 && forall i :: 1 <= i < |rs| ==> rs[i - 1] == rs[i] + 1 {
      var n := 1;
      while n < |rs|
        invariant 1 <= n <= |rs|
        invariant forall i :: 0 <= i < n ==> rs[i] == rs[0] - i
      {
        assert rs[n - 1] == rs[n] + 1;
        n := n + 1;
      }
    }
  }

  /** The sorted ranks of the wheel, A-5-4-3-2. */
  const Wheel: seq<int> := [Ace, Five, 4, 3, Two]

  /** The wheel's ranks after the Ace is rotated to the end. */
  const WheelValues: seq<int> := [Five, 4, 3, Two, Ace]

  /** The number of tie-break values each category carries. */
  function Arity(h: HandRank): nat
  {
    match h
    case FourOfAKind => 2
    case FullHouse => 2
    case ThreeOfAKind => 3
    case TwoPair => 3
    case OnePair => 4
    case _ => 5
  }

  /** The category tests of `evaluateHand`, in the order it makes them, given
      the (possibly rotated) ranks, the straight and flush tests and the
      frequency list. */
  function Select(vals: seq<int>, straight: bool, flush: bool, f: seq<Group>): (r: EvalResult)
    requires |vals| == 5 && FiveLayout(f)
    requires forall i :: 0 <= i < |f| ==> f[i].rank in vals
    ensures |r.values| == Arity(r.handRank)
    ensures forall v :: v in r.values ==> v in vals
  {
    if straight && flush then
      EvalResult(if vals[0] == Ace && vals[1] == King then RoyalFlush else StraightFlush, vals)
    else if f[0].count == 4 then
      EvalResult(FourOfAKind, [f[0].rank, f[1].rank])
    else if f[0].count == 3 && f[1].count == 2 then
      EvalResult(FullHouse, [f[0].rank, f[1].rank])
    else if flush then
      EvalResult(Flush, vals)
    else if straight then
      EvalResult(Straight, vals)
    else if f[0].count == 3 then
      EvalResult(ThreeOfAKind, [f[0].rank, f[1].rank, f[2].rank])
    else if f[0].count == 2 && f[1].count == 2 then
      EvalResult(TwoPair, [f[0].rank, f[1].rank, f[2].rank])
    else if f[0].count == 2 then
      EvalResult(OnePair, [f[0].rank, f[1].rank, f[2].rank, f[3].rank])
    else
      EvalResult(HighCard, vals)
  }

  /** The wheel rotation: the Ace moves from the front to the back. */
  function Rotate(rs: seq<int>): (r: seq<int>)
    requires |rs| > 0
    ensures multiset(r) == multiset(rs)
  {
    assert rs == [rs[0]] + rs[1..];
    rs[1..] + [rs[0]]
  }

  /** Everything `evaluateHand` does after sorting, given the sorted
      ranks and the outcome of the flush test. */
  function Classify(rs: seq<int>, flush: bool): (r: EvalResult)
    requires |rs| == 5
    ensures |r.values| == Arity(r.handRank)
    ensures forall v :: v in r.values ==> v in rs
  {
    var run := IsRun(rs);
    var wheel := !run && rs == Wheel;
    var straight := run || wheel;
    var vals := if wheel then Rotate(rs) else rs;
    assert forall v :: v in vals ==> v in multiset(rs);
    var f := Freq(vals);
    TallyOfFive(f, vals);
    Select(vals, straight, flush, f)
  }

  /** A rank of the sorted cards is the rank of one of the input cards. */
  lemma SortedRankIsCardRank(cards: seq<Card>, sorted: seq<Card>, v: int)
    requires multiset(sorted) == multiset(cards)
    requires v in Ranks(sorted)
    ensures exists i :: 0 <= i < |cards| && cards[i].rank == v
  {
    var k :| 0 <= k < |sorted| && sorted[k].rank == v;
    MemberOfPermutation(sorted, cards, sorted[k]);
  }

  /** A card of one arrangement sits somewhere in any other arrangement
      of the same cards. */
  lemma MemberOfPermutation(s: seq<Card>, t: seq<Card>, c: Card)
    requires multiset(s) == multiset(t) && c in s
    ensures exists i :: 0 <= i < |t| && t[i] == c
  {
    assert c in multiset(t);
    var i :| 0 <= i < |t| && t[i] == c;
  }

  /** `evaluateHand` on exactly five cards. Every tie-break value is the
      rank of one of the cards, and each category has its fixed number of
      values. */
  function EvaluateHand(cards: seq<Card>): (r: EvalResult)
    requires |cards| == 5
    ensures |r.values| == Arity(r.handRank)
    ensures forall v :: v in r.values ==> exists i :: 0 <= i < |cards| && cards[i].rank == v
  {
    var sorted := SortByRank(cards);
    var r := Classify(Ranks(sorted), IsFlush(sorted));
    assert forall v :: v in r.values ==> exists i :: 0 <= i < |cards| && cards[i].rank == v by {
      forall v | v in r.values
        ensures exists i :: 0 <= i < |cards| && cards[i].rank == v
      {
        SortedRankIsCardRank(cards, sorted, v);
      }
    }
    r
  }

  /** All cards share one suit. */
  ghost predicate SameSuit(cards: seq<Card>)
  {
    forall i, j :: 0 <= i < |cards| && 0 <= j < |cards| ==> cards[i].suit == cards[j].suit
  }

  /** Comparing every card against the first is the same as comparing all
      pairs. */
  lemma FirstSuitTest(cards: seq<Card>)
    ensures (forall i :: 1 <= i < |cards| ==> cards[i].suit == cards[0].suit) <==> SameSuit(cards)
  {
    if forall i :: 1 <= i < |cards| ==> cards[i].suit == cards[0].suit {
      forall i, j | 0 <= i < |cards| && 0 <= j < |cards|
        ensures cards[i].suit == cards[j].suit
      {
        assert i == 0 || cards[i].suit == cards[0].suit;
        assert j == 0 || cards[j].suit == cards[0].suit;
      }
    }
  }

  /** Whether all cards share a suit does not depend on their order. */
  lemma SameSuitOfPermutation(p: seq<Card>, q: seq<Card>)
    requires multiset(p) == multiset(q)
    requires SameSuit(p)
    ensures SameSuit(q)
  {
    forall i, j | 0 <= i < |q| && 0 <= j < |q|
      ensures q[i].suit == q[j].suit
    {
      assert q[i] in multiset(p) && q[j] in multiset(p);
      var a :| 0 <= a < |p| && p[a] == q[i];
      var b :| 0 <= b < |p| && p[b] == q[j];
    }
  }

  /** The sort's order among equal-rank cards is unobservable: classifying
      ANY rank-descending arrangement of the cards gives the result of
      `EvaluateHand`. */
  lemma AnyDescendingArrangement(cards: seq<Card>, s: seq<Card>)
    requires |cards| == 5
    requires SortedByRankDesc(s) && multiset(s) == multiset(cards)
    ensures |s| == 5
    ensures Classify(Ranks(s), IsFlush(s)) == EvaluateHand(cards)
  {
    assert |s| == 5 by {
      assert |multiset(s)| == |multiset(cards)|;
    }
    var sorted := SortByRank(cards);
    SortedRanksUnique(s, sorted);
    if SameSuit(s) {
      SameSuitOfPermutation(s, sorted);
    }
    if SameSuit(sorted) {
      SameSuitOfPermutation(sorted, s);
    }
  }

  /** The result depends only on which five cards are given, not on their
      order. */
  lemma EvaluateHandPermutationInvariant(p: seq<Card>, q: seq<Card>)
    requires |p| == 5
    requires multiset(p) == multiset(q)
    ensures |q| == 5
    ensures EvaluateHand(p) == EvaluateHand(q)
  {
    assert |q| == 5 by {
      assert |multiset(p)| == |multiset(q)|;
    }
    AnyDescendingArrangement(p, SortByRank(q));
  }
}

=== FILE: frequency.dfy ===
/** The rank-frequency list of `evaluateHand`: the ranks are counted in a
    `std::map<Rank, int>`, the map is copied into a vector of
    `(count, rank)` pairs, and that vector is sorted in reverse, i.e. by
    count descending and then rank descending. */
module Frequency {

  /** One `(count, rank)` pair of the frequency list. */
  datatype Group = Group(count: int, rank: int)

  /** The pair order `std::pair` uses, strictly: count first, then rank. */
  predicate Above(a: Group, b: Group)
  {
    a.count > b.count || (a.count == b.count && a.rank > b.rank)
  }

  predicate StrictlyDescending(gs: seq<Group>)
  {
    forall i, j :: 0 <= i < j < |gs| ==> Above(gs[i], gs[j])
  }

  predicate NoDuplicates<T(==)>(s: seq<T>)
  {
    forall i, j :: 0 <= i < j < |s| ==> s[i] != s[j]
  }

  /** Sum of the counts of a frequency list. */
  function CountSum(gs: seq<Group>): int
  {
    if |gs| == 0 then 0 else gs[0].count + CountSum(gs[1..])
  }

  /** The keys of the counting map: every rank that occurs, once. */
  function Distinct(rs: seq<int>): (d: seq<int>)
    ensures forall x :: x in d <==> x in rs
    ensures NoDuplicates(d)
  {
    if |rs| == 0 then []
    else if rs[0] in rs[1..] then Distinct(rs[1..])
    else [rs[0]] + Distinct(rs[1..])
  }

  /** One `(count, rank)` pair per key, counting the key's occurrences. */
  function Tally(rs: seq<int>, keys: seq<int>): (gs: seq<Group>)
    ensures |gs| == |keys|
    ensures forall i :: 0 <= i < |keys| ==> gs[i] == Group(multiset(rs)[keys[i]], keys[i])
  {
    if |keys| == 0 then []
    else [Group(multiset(rs)[keys[0]], keys[0])] + Tally(rs, keys[1..])
  }

  /** A strictly descending list stays so when an element above all of
      its entries is put in front. */
  lemma PrependAbove(h: Group, t: seq<Group>)
    requires StrictlyDescending(t)
    requires forall x | x in t :: Above(h, x)
    ensures StrictlyDescending([h] + t)
  {
    forall i, j | 0 <= i < j < |[h] + t|
      ensures Above(([h] + t)[i], ([h] + t)[j])
    {
      assert ([h] + t)[j] == t[j - 1];
      if i > 0 {
        assert ([h] + t)[i] == t[i - 1];
      } else {
        assert t[j - 1] in t;
      }
    }
  }

  function InsertGroup(g: Group, gs: seq<Group>): (r: seq<Group>)
    requires StrictlyDescending(gs) && g !in gs
    ensures StrictlyDescending(r)
    ensures multiset(r) == multiset(gs) + multiset{g}
    ensures CountSum(r) == CountSum(gs) + g.count
  {
    if |gs| == 0 || Above(g, gs[0]) then
      AboveHeadAboveAll(g, gs);
      PrependAbove(g, gs);
      [g] + gs
    else
      var rest := InsertGroup(g, gs[1..]);
      assert gs == [gs[0]] + gs[1..];
      HeadAboveInserted(g, gs, rest);
      PrependAbove(gs[0], rest);
      assert ([gs[0]] + rest)[1..] == rest;
      [gs[0]] + rest
  }

  /** In a strictly descending list, whatever is above the head is above
      every entry. */
  lemma AboveHeadAboveAll(g: Group, gs: seq<Group>)
    requires StrictlyDescending(gs)
    requires |gs| == 0 || Above(g, gs[0])
    ensures forall x | x in gs :: Above(g, x)
  {
    forall x | x in gs
      ensures Above(g, x)
    {
      var i :| 0 <= i < |gs| && gs[i] == x;
      if i > 0 {
        assert Above(gs[0], gs[i]);
      }
    }
  }

  /** The head of a strictly descending list is above every entry of its
      tail with a smaller element inserted. */
  lemma HeadAboveInserted(g: Group, gs: seq<Group>, rest: seq<Group>)
    requires |gs| > 0 && StrictlyDescending(gs) && !Above(g, gs[0]) && g != gs[0]
    requires multiset(rest) == multiset(gs[1..]) + multiset{g}
    ensures forall x | x in rest :: Above(gs[0], x)
  {
    forall x | x in rest
      ensures Above(gs[0], x)
    {
      assert x in multiset(gs[1..]) + multiset{g};
      if x != g {
        assert x in gs[1..];
        var i :| 0 <= i < |gs[1..]| && gs[1..][i] == x;
        assert Above(gs[0], gs[i + 1]);
      }
    }
  }

  /** The reverse sort of the pair vector. */
  function SortGroups(gs: seq<Group>): (r: seq<Group>)
    requires NoDuplicates(gs)
    ensures StrictlyDescending(r)
    ensures multiset(r) == multiset(gs)
    ensures CountSum(r) == CountSum(gs)
  {
    if |gs| == 0 then []
    else
      assert gs == [gs[0]] + gs[1..];
      var rest := SortGroups(gs[1..]);
      assert gs[0] !in multiset(gs[1..]);
      InsertGroup(gs[0], rest)
  }

  /** `f` is a frequency list of `rs`: one pair per rank that occurs, each
      with that rank's number of occurrences, sorted by count and then rank,
      both descending, the counts adding up to the number of ranks. */
  ghost predicate IsTally(f: seq<Group>, rs: seq<int>)
  {
    && StrictlyDescending(f)
    && (forall i :: 0 <= i < |f| ==> f[i].rank in rs && f[i].count == multiset(rs)[f[i].rank])
    && (forall x :: x in rs ==> exists i :: 0 <= i < |f| && f[i].rank == x)
    && CountSum(f) == |rs|
  }

  lemma {:induction false} TallyOfNothing(keys: seq<int>)
    ensures CountSum(Tally([], keys)) == 0
    decreases |keys|
  {
    if |keys| > 0 {
      TallyOfNothing(keys[1..]);
    }
  }

  /** Counting one more rank `a` adds one to the total, if `a` is a key. */
  lemma {:induction false} TallyCons(a: int, t: seq<int>, keys: seq<int>)
    requires NoDuplicates(keys)
    ensures CountSum(Tally([a] + t, keys)) == CountSum(Tally(t, keys)) + (if a in keys then 1 else 0)
    decreases |keys|
  {
    if |keys| > 0 {
      TallyCons(a, t, keys[1..]);
      assert keys == [keys[0]] + keys[1..];
      assert multiset([a] + t) == multiset{a} + multiset(t);
    }
  }

  /** When every rank is a key, the counts add up to the number of ranks. */
  lemma {:induction false} TallyTotal(rs: seq<int>, keys: seq<int>)
    requires NoDuplicates(keys)
    requires forall x :: x in rs ==> x in keys
    ensures CountSum(Tally(rs, keys)) == |rs|
    decreases |rs|
  {
    if |rs| == 0 {
      TallyOfNothing(keys);
    } else {
      assert rs == [rs[0]] + rs[1..];
      TallyTotal(rs[1..], keys);
      TallyCons(rs[0], rs[1..], keys);
    }
  }

  lemma TallyHasNoDuplicates(rs: seq<int>, keys: seq<int>)
    requires NoDuplicates(keys)
    ensures NoDuplicates(Tally(rs, keys))
  {
    var gs := Tally(rs, keys);
    forall i, j | 0 <= i < j < |gs|
      ensures gs[i] != gs[j]
    {
      assert gs[i].rank == keys[i] && gs[j].rank == keys[j];
    }
  }

  /** Sorting the tally of the distinct ranks yields a frequency list. */
  lemma SortedTallyIsTally(rs: seq<int>, f: seq<Group>)
    requires StrictlyDescending(f)
    requires multiset(f) == multiset(Tally(rs, Distinct(rs)))
    requires CountSum(f) == CountSum(Tally(rs, Distinct(rs)))
    ensures IsTally(f, rs)
  {
    var keys := Distinct(rs);
    var tally := Tally(rs, keys);
    TallyTotal(rs, keys);
    forall i | 0 <= i < |f|
      ensures f[i].rank in rs && f[i].count == multiset(rs)[f[i].rank]
    {
      assert f[i] in multiset(tally);
      var k :| 0 <= k < |tally| && tally[k] == f[i];
      assert keys[k] in keys;
    }
    forall x | x in rs
      ensures exists i :: 0 <= i < |f| && f[i].rank == x
    {
      assert x in keys;
      var k :| 0 <= k < |keys| && keys[k] == x;
      assert tally[k] in multiset(f);
      var i :| 0 <= i < |f| && f[i] == tally[k];
      assert f[i].rank == x;
    }
  }

  /** The frequency list built from the counting map. */
  function Freq(rs: seq<int>): (f: seq<Group>)
    ensures IsTally(f, rs)
  {
    var keys := Distinct(rs);
    TallyHasNoDuplicates(rs, keys);
    var f := SortGroups(Tally(rs, keys));
    SortedTallyIsTally(rs, f);
    f
  }

  lemma HeadsAreMembers<T>(f: seq<T>, g: seq<T>)
    ensures |f| > 0 ==> f[0] in f
    ensures |g| > 0 ==> g[0] in g
  {
  }

  /** Two strictly descending lists with the same elements are equal. */
  lemma {:induction false} StrictlyDescendingUnique(f: seq<Group>, g: seq<Group>)
    requires StrictlyDescending(f) && StrictlyDescending(g)
    requires forall x :: x in f <==> x in g
    ensures f == g
    decreases |f|
  {
    HeadsAreMembers(f, g);
    if |f| > 0 && |g| > 0 {
      var k :| 0 <= k < |g| && g[k] == f[0];
      var m :| 0 <= m < |f| && f[m] == g[0];
      assert f[0] == g[0];
      forall x
        ensures x in f[1..] <==> x in g[1..]
      {
        if x in f[1..] {
          var i :| 1 <= i < |f| && f[i] == x;
          assert Above(f[0], f[i]);
          assert x in g;
          var j :| 0 <= j < |g| && g[j] == x;
          assert j != 0;
          assert g[1..][j - 1] == x;
        }
        if x in g[1..] {
          var i :| 1 <= i < |g| && g[i] == x;
          assert Above(g[0], g[i]);
          assert x in f;
          var j :| 0 <= j < |f| && f[j] == x;
          assert j != 0;
          assert f[1..][j - 1] == x;
        }
      }
      StrictlyDescendingUnique(f[1..], g[1..]);
    }
  }

  /** A frequency list is fully determined by the ranks it counts. This is
      why the order in which the map hands out its keys, and the sort
      algorithm, do not matter. */
  lemma TallyUnique(f: seq<Group>, g: seq<Group>, rs: seq<int>)
    requires IsTally(f, rs) && IsTally(g, rs)
    ensures f == g
  {
    forall x
      ensures x in f <==> x in g
    {
      if x in f {
        var i :| 0 <= i < |f| && f[i] == x;
        var j :| 0 <= j < |g| && g[j].rank == x.rank;
      }
      if x in g {
        var i :| 0 <= i < |g| && g[i] == x;
        var j :| 0 <= j < |f| && f[j].rank == x.rank;
      }
    }
    StrictlyDescendingUnique(f, g);
  }

  lemma {:induction false} CountSumAtLeastLength(gs: seq<Group>)
    requires forall i :: 0 <= i < |gs| ==> gs[i].count >= 1
    ensures CountSum(gs) >= |gs|
    decreases |gs|
  {
    if |gs| > 0 {
      CountSumAtLeastLength(gs[1..]);
    }
  }

  /** The entries of a frequency list have positive, non-increasing
      counts and pairwise distinct ranks. */
  lemma TallyShape(f: seq<Group>, rs: seq<int>)
    requires IsTally(f, rs)
    ensures forall i :: 0 <= i < |f| ==> f[i].count >= 1
    ensures forall i, j :: 0 <= i < j < |f| ==> f[i].count >= f[j].count
    ensures forall i, j :: 0 <= i < j < |f| ==> f[i].rank != f[j].rank
  {
    forall i | 0 <= i < |f|
      ensures f[i].count >= 1
    {
      assert f[i].rank in multiset(rs);
    }
    forall i, j | 0 <= i < j < |f|
      ensures f[i].count >= f[j].count && f[i].rank != f[j].rank
    {
      assert Above(f[i], f[j]);
    }
  }

  lemma CountSumFirstThree(gs: seq<Group>)
    requires |gs| >= 3
    ensures CountSum(gs) == gs[0].count + gs[1].count + gs[2].count + CountSum(gs[3..])
  {
    var t1 := gs[1..];
    var t2 := gs[2..];
    assert t1[0] == gs[1] && t1[1..] == t2;
    assert t2[0] == gs[2] && t2[1..] == gs[3..];
    assert CountSum(gs) == gs[0].count + CountSum(t1);
    assert CountSum(t1) == gs[1].count + CountSum(t2);
    assert CountSum(t2) == gs[2].count + CountSum(gs[3..]);
  }

  /** The facts about the counts of a five-rank frequency list that
      `evaluateHand` needs before it reads `freq[1]`, `freq[2]` or
      `freq[3]`: counts are positive and non-increasing, add up to at most
      five, and the list is long enough whenever they leave room. */
  predicate FiveLayout(f: seq<Group>)
  {
    && |f| >= 1
    && f[0].count <= 5
    && (f[0].count < 5 ==> |f| >= 2)
    && (|f| >= 2 ==> 1 <= f[1].count <= f[0].count && f[0].count + f[1].count <= 5)
    && (|f| >= 2 && f[0].count + f[1].count < 5 ==> |f| >= 3)
    && (|f| >= 3 ==> 1 <= f[2].count <= f[1].count && f[0].count + f[1].count + f[2].count <= 5)
    && (|f| >= 3 && f[0].count + f[1].count + f[2].count < 5 ==> |f| >= 4)
  }

  /** The shape of the frequency list of five ranks that `evaluateHand`
      relies on when it reads `freq[0]` to `freq[3]`. */
  lemma TallyOfFive(f: seq<Group>, rs: seq<int>)
    requires IsTally(f, rs) && |rs| == 5
    ensures forall i :: 0 <= i < |f| ==> f[i].count >= 1
    ensures forall i, j :: 0 <= i < j < |f| ==> f[i].count >= f[j].count
    ensures forall i, j :: 0 <= i < j < |f| ==> f[i].rank != f[j].rank
    ensures FiveLayout(f)
  {
    TallyShape(f, rs);
    assert rs[0] in rs;
    CountSumAtLeastLength(f);
    if |f| >= 3 {
      CountSumFirstThree(f);
      CountSumAtLeastLength(f[3..]);
    } else if |f| == 2 {
      assert CountSum(f) == f[0].count + CountSum(f[1..]);
      assert CountSum(f[1..]) == f[1].count + CountSum(f[1..][1..]);
    }
  }
}

=== FILE: masks.dfy ===
/** The selection masks of `getBestHand`: a 0/1 vector over the seven
    cards, started at {0,0,1,1,1,1,1} and advanced with
    `std::next_permutation` until it reports that the last arrangement has
    been passed. `next_permutation` is modelled as the standard algorithm
    (last ascent, rightmost larger element, swap, reverse the tail), and
    the lemmas show that on these masks it walks through all 21 ways of
    leaving out two of the seven cards, each once, in increasing
    lexicographic order. */
module Masks {
  import opened PokerTypes
  import opened Ordering
  import opened RankSort

  // ---------------------------------------------------------------
  // next_permutation
  // ---------------------------------------------------------------

  function Reverse(s: seq<int>): seq<int>
  {
    seq(|s|, k requires 0 <= k < |s| => s[|s| - 1 - k])
  }

  /** The last position at or below `from` where `a` ascends
      (`a[k] < a[k + 1]`), or -1 when there is none. */
  function Pivot(a: seq<int>, from: int): (k: int)
    requires -1 <= from && from + 1 < |a|
    ensures -1 <= k <= from
    ensures k >= 0 ==> a[k] < a[k + 1]
    ensures forall m :: k < m <= from ==> a[m] >= a[m + 1]
    decreases from + 1
  {
    if from < 0 then -1
    else if a[from] < a[from + 1] then from
    else Pivot(a, from - 1)
  }

  /** The last position at or below `from`, and after `k`, holding an
      element larger than `a[k]`. */
  function Successor(a: seq<int>, k: int, from: int): (l: int)
    requires 0 <= k < from < |a| && a[k] < a[k + 1]
    ensures k < l <= from && a[k] < a[l]
    ensures forall m :: l < m <= from ==> a[m] <= a[k]
    decreases from
  {
    if a[k] < a[from] then from else Successor(a, k, from - 1)
  }

  /** `std::next_permutation`: a rearrangement of its input. While the
      input is not yet in descending order it gives the next arrangement
      in lexicographic order and `true`; after the last arrangement it
      gives the first one (the input reversed, now ascending) and
      `false`. That the `true` case is the least greater arrangement is
      `NextPermutationIsLeast`. */
  function NextPermutation(a: seq<int>): (r: (seq<int>, bool))
    ensures |r.0| == |a|
    ensures multiset(r.0) == multiset(a)
    ensures r.1 ==> LexGreater(r.0, a)
    ensures !r.1 <==> NonIncreasing(a)
    ensures !r.1 ==> r.0 == Reverse(a) && NonDecreasing(r.0)
  {
    ReverseMultiset(a);
    if |a| < 2 then (Reverse(a), false)
    else
      var k := Pivot(a, |a| - 2);
      if k < 0 then (Reverse(a), false)
      else
        var l := Successor(a, k, |a| - 1);
        var r := SwapAndReverse(a, k, l);
        assert r[..k] == a[..k] && r[k] > a[k];
        assert WinsAt(r, a, k);
        LexGreaterIffWinsAt(r, a);
        (r, true)
  }

  /** The rearranging step of `next_permutation`: swap positions `k` and
      `l`, then reverse everything after `k`. The result is a
      rearrangement that keeps the entries before `k` and puts `a[l]` at
      `k`. */
  function SwapAndReverse(a: seq<int>, k: int, l: int): (r: seq<int>)
    requires 0 <= k < l < |a|
    ensures |r| == |a|
    ensures multiset(r) == multiset(a)
    ensures r[..k] == a[..k] && r[k] == a[l]
  {
    var b := a[k := a[l]][l := a[k]];
    SwapMultiset(a, k, l);
    ReverseMultiset(b[k + 1..]);
    assert b == b[..k + 1] + b[k + 1..];
    b[..k + 1] + Reverse(b[k + 1..])
  }

  /** Swapping two entries keeps the elements. */
  lemma SwapMultiset(a: seq<int>, k: int, l: int)
    requires 0 <= k < l < |a|
    ensures multiset(a[k := a[l]][l := a[k]]) == multiset(a)
  {
    var a1 := a[k := a[l]];
    assert multiset(a1) == multiset(a) - multiset{a[k]} + multiset{a[l]};
    assert a1[l] == a[l];
    assert multiset(a1[l := a[k]]) == multiset(a1) - multiset{a[l]} + multiset{a[k]};
  }

  predicate NonIncreasing(s: seq<int>)
  {
    forall m :: 0 <= m < |s| - 1 ==> s[m] >= s[m + 1]
  }

  /** Comparing neighbours is enough: a sequence whose neighbours do not
      increase is `Descending`, which compares all pairs. */
  lemma NonIncreasingIsDescending(s: seq<int>)
    ensures NonIncreasing(s) <==> Descending(s)
  {
    if NonIncreasing(s) {
      forall i, j | 0 <= i < j < |s|
        ensures s[i] >= s[j]
      {
        NonIncreasingOrder(s, i, j);
      }
    }
  }

  predicate NonDecreasing(s: seq<int>)
  {
    forall m :: 0 <= m < |s| - 1 ==> s[m] <= s[m + 1]
  }

  /** Reversing keeps the elements and turns descending into ascending. */
  lemma {:induction false} ReverseMultiset(s: seq<int>)
    ensures multiset(Reverse(s)) == multiset(s)
    ensures NonIncreasing(s) ==> NonDecreasing(Reverse(s))
    decreases |s|
  {
    if |s| > 0 {
      var t := s[..|s| - 1];
      assert Reverse(s) == [s[|s| - 1]] + Reverse(t);
      ReverseMultiset(t);
      assert s == t + [s[|s| - 1]];
    }
    if NonIncreasing(s) {
      forall m | 0 <= m < |s| - 1
        ensures Reverse(s)[m] <= Reverse(s)[m + 1]
      {
        assert s[|s| - 2 - m] >= s[|s| - 1 - m];
      }
    }
  }

  // ---------------------------------------------------------------
  // next_permutation gives the least greater arrangement
  // ---------------------------------------------------------------

  /** Every arrangement `c` of `a` that is greater than `a` is at least
      the arrangement `next_permutation` gives, so nothing lies strictly
      between the two. */
  lemma NextPermutationIsLeast(a: seq<int>, c: seq<int>)
    requires multiset(c) == multiset(a) && LexGreater(c, a)
    ensures NextPermutation(a).1
    ensures !LexGreater(NextPermutation(a).0, c)
  {
    assert |c| == |a| by {
      assert |multiset(c)| == |multiset(a)|;
    }
    var p := FirstDifference(c, a);
    NotDescendingFrom(a, c, p);
    var n := |a|;
    var k := Pivot(a, n - 2);
    if k < p {
      DescendsAfterPivot(a, k, p);
    }
    var l := NextPermutationSwaps(a);
    var r := SwapAndReverse(a, k, l);
    if p < k {
      BeatenBefore(a, c, r, p, k);
    } else {
      PivotEntryAtLeast(a, c, k, l);
      SwappedTailAscends(a, k, l);
      BeatenAtPivot(a, c, r, k);
    }
  }

  /** Once there is an ascent, `next_permutation` swaps at the pivot and
      its successor. */
  lemma NextPermutationSwaps(a: seq<int>) returns (l: int)
    requires |a| >= 2 && Pivot(a, |a| - 2) >= 0
    ensures l == Successor(a, Pivot(a, |a| - 2), |a| - 1)
    ensures NextPermutation(a) == (SwapAndReverse(a, Pivot(a, |a| - 2), l), true)
  {
    l := Successor(a, Pivot(a, |a| - 2), |a| - 1);
  }

  /** Where `c` first beats `a`, the rest of `a` cannot be descending: a
      descending rest would be the greatest arrangement of itself. */
  lemma NotDescendingFrom(a: seq<int>, c: seq<int>, p: int)
    requires |c| == |a| && 0 <= p < |a| && c[..p] == a[..p] && c[p] > a[p]
    requires multiset(c) == multiset(a)
    ensures !NonIncreasing(a[p..]) && p < |a| - 1
  {
    SuffixMultiset(c, a, p);
    LexGreaterAfterPrefix(c, a, p);
    assert LexGreater(c[p..], a[p..]);
    if NonIncreasing(a[p..]) {
      NonIncreasingIsLargest(a[p..], c[p..]);
    }
  }

  /** Past the last ascent everything descends. */
  lemma DescendsAfterPivot(a: seq<int>, k: int, p: int)
    requires -1 <= k < p < |a|
    requires forall m :: k < m <= |a| - 2 ==> a[m] >= a[m + 1]
    ensures NonIncreasing(a[p..])
  {
    forall m | 0 <= m < |a[p..]| - 1
      ensures a[p..][m] >= a[p..][m + 1]
    {
      assert a[p + m] >= a[p + m + 1];
    }
  }

  /** Where a greater sequence of the same length first differs. */
  lemma FirstDifference(c: seq<int>, a: seq<int>) returns (p: int)
    requires |c| == |a| && LexGreater(c, a)
    ensures 0 <= p < |a| && c[..p] == a[..p] && c[p] > a[p]
  {
    LexGreaterIffWinsAt(c, a);
    p :| WinsAt(c, a, p);
  }

  /** After a common prefix, the rest of two equal-element sequences has
      equal elements too. */
  lemma SuffixMultiset(x: seq<int>, y: seq<int>, j: int)
    requires 0 <= j <= |x| && j <= |y| && x[..j] == y[..j]
    requires multiset(x) == multiset(y)
    ensures multiset(x[j..]) == multiset(y[j..])
  {
    assert x == x[..j] + x[j..];
    assert y == y[..j] + y[j..];
    assert multiset(x[j..]) == multiset(x) - multiset(x[..j]);
    assert multiset(y[j..]) == multiset(y) - multiset(y[..j]);
  }

  /** After a common prefix, the comparison is decided by what follows. */
  lemma {:induction false} LexGreaterAfterPrefix(x: seq<int>, y: seq<int>, j: int)
    requires 0 <= j <= |x| && j <= |y| && x[..j] == y[..j]
    ensures LexGreater(x, y) == LexGreater(x[j..], y[j..])
    decreases j
  {
    if j > 0 {
      assert x[0] == x[..j][0] && y[0] == y[..j][0];
      assert x[1..][..j - 1] == x[..j][1..] && y[1..][..j - 1] == y[..j][1..];
      LexGreaterAfterPrefix(x[1..], y[1..], j - 1);
      assert x[1..][j - 1..] == x[j..] && y[1..][j - 1..] == y[j..];
    }
  }

  /** In a descending sequence no entry exceeds an earlier one. */
  lemma NonIncreasingOrder(s: seq<int>, i: int, j: int)
    requires NonIncreasing(s) && 0 <= i <= j < |s|
    ensures s[i] >= s[j]
    decreases j - i
  {
    if i < j {
      NonIncreasingOrder(s, i + 1, j);
    }
  }

  /** A descending sequence is the greatest arrangement of its elements. */
  lemma {:induction false} NonIncreasingIsLargest(a: seq<int>, c: seq<int>)
    requires NonIncreasing(a) && multiset(c) == multiset(a)
    ensures !LexGreater(c, a)
    decreases |a|
  {
    assert |c| == |a| by {
      assert |multiset(c)| == |multiset(a)|;
    }
    if |a| > 0 {
      assert c[0] in multiset(a);
      var q :| 0 <= q < |a| && a[q] == c[0];
      NonIncreasingOrder(a, 0, q);
      if c[0] == a[0] {
        SuffixMultiset(c, a, 1);
        NonIncreasingIsLargest(a[1..], c[1..]);
      }
    }
  }

  /** An ascending sequence is the least arrangement of its elements. */
  lemma {:induction false} NonDecreasingIsSmallest(a: seq<int>, c: seq<int>)
    requires NonDecreasing(a) && multiset(c) == multiset(a)
    ensures !LexGreater(a, c)
    decreases |a|
  {
    assert |c| == |a| by {
      assert |multiset(c)| == |multiset(a)|;
    }
    if |a| > 0 {
      assert c[0] in multiset(a);
      var q :| 0 <= q < |a| && a[q] == c[0];
      NonDecreasingOrder(a, 0, q);
      if c[0] == a[0] {
        SuffixMultiset(c, a, 1);
        NonDecreasingIsSmallest(a[1..], c[1..]);
      }
    }
  }

  /** In an ascending sequence no entry is below an earlier one. */
  lemma NonDecreasingOrder(s: seq<int>, i: int, j: int)
    requires NonDecreasing(s) && 0 <= i <= j < |s|
    ensures s[i] <= s[j]
    decreases j - i
  {
    if i < j {
      NonDecreasingOrder(s, i + 1, j);
    }
  }

  /** When `c` first beats `a` before the pivot, it also beats the next
      arrangement `r`, which agrees with `a` up to the pivot. */
  lemma BeatenBefore(a: seq<int>, c: seq<int>, r: seq<int>, p: int, k: int)
    requires |c| == |a| == |r| && 0 <= p < k < |a|
    requires c[..p] == a[..p] && c[p] > a[p] && r[..k] == a[..k]
    ensures !LexGreater(r, c)
  {
    assert r[..p] == a[..p] && r[p] == a[p];
    assert WinsAt(c, r, p);
    LexGreaterIffWinsAt(c, r);
    LexTrichotomy(c, r);
  }

  /** `a[l]` is the least entry after the pivot that exceeds `a[k]`. */
  lemma SuccessorIsLeast(a: seq<int>, k: int, l: int, x: int)
    requires 0 <= k < l < |a| && a[k] < a[l]
    requires forall m :: k < m < |a| - 1 ==> a[m] >= a[m + 1]
    requires forall m :: l < m < |a| ==> a[m] <= a[k]
    ensures x in multiset(a[k + 1..]) && x > a[k] ==> x >= a[l]
  {
    var t := a[k + 1..];
    if x in multiset(t) && x > a[k] {
      var q :| 0 <= q < |t| && t[q] == x;
      assert q + k + 1 <= l;
      assert NonIncreasing(t) by {
        forall m | 0 <= m < |t| - 1
          ensures t[m] >= t[m + 1]
        {
          assert a[k + 1 + m] >= a[k + 1 + m + 1];
        }
      }
      NonIncreasingOrder(t, q, l - k - 1);
    }
  }

  /** Where `c` first beats `a` at the pivot, its entry is one of the
      entries after the pivot that exceed `a[k]`, so it is at least
      `a[l]`. */
  lemma PivotEntryAtLeast(a: seq<int>, c: seq<int>, k: int, l: int)
    requires |c| == |a| && 0 <= k < l < |a| && a[k] < a[l]
    requires forall m :: k < m < |a| - 1 ==> a[m] >= a[m + 1]
    requires forall m :: l < m < |a| ==> a[m] <= a[k]
    requires multiset(c) == multiset(a) && c[..k] == a[..k] && c[k] > a[k]
    ensures c[k] >= a[l]
  {
    SuffixMultiset(c, a, k);
    assert a[k..] == [a[k]] + a[k + 1..];
    assert c[k] in multiset(c[k..]);
    SuccessorIsLeast(a, k, l, c[k]);
  }

  /** An arrangement `r` that agrees with `a` before `k`, is at most `c`
      at `k` and ascends after it, is not greater than `c`: either `c`
      wins at `k`, or on a tie the rest of `r` is the least order of the
      same elements. */
  lemma BeatenAtPivot(a: seq<int>, c: seq<int>, r: seq<int>, k: int)
    requires |c| == |a| == |r| && 0 <= k < |a|
    requires multiset(c) == multiset(a) && multiset(r) == multiset(a)
    requires c[..k] == a[..k] && r[..k] == a[..k] && c[k] >= r[k]
    requires NonDecreasing(r[k + 1..])
    ensures !LexGreater(r, c)
  {
    if c[k] > r[k] {
      assert WinsAt(c, r, k);
      LexGreaterIffWinsAt(c, r);
      LexTrichotomy(c, r);
    } else {
      assert c[..k + 1] == r[..k + 1] by {
        assert c[..k + 1] == c[..k] + [c[k]];
        assert r[..k + 1] == r[..k] + [r[k]];
      }
      SuffixMultiset(c, r, k + 1);
      NonDecreasingIsSmallest(r[k + 1..], c[k + 1..]);
      LexGreaterAfterPrefix(r, c, k + 1);
    }
  }

  /** After the swap the entries past the pivot still descend, so
      reversing them leaves them ascending. */
  lemma SwappedTailAscends(a: seq<int>, k: int, l: int)
    requires 0 <= k < l < |a| && a[k] < a[l]
    requires forall m :: k < m < |a| - 1 ==> a[m] >= a[m + 1]
    requires forall m :: l < m < |a| ==> a[m] <= a[k]
    ensures NonDecreasing(SwapAndReverse(a, k, l)[k + 1..])
  {
    var b := a[k := a[l]][l := a[k]];
    var t := b[k + 1..];
    assert NonIncreasing(t) by {
      forall m | 0 <= m < |t| - 1
        ensures t[m] >= t[m + 1]
      {
        var i := k + 1 + m;
        assert t[m] == b[i] && t[m + 1] == b[i + 1];
        assert a[i] >= a[i + 1];
      }
    }
    ReverseMultiset(t);
    assert SwapAndReverse(a, k, l)[k + 1..] == Reverse(t);
  }

  /** `Pivot` is determined by where the last ascent is. */
  lemma {:induction false} PivotIs(a: seq<int>, from: int, k: int)
    requires -1 <= k <= from && from + 1 < |a|
    requires k >= 0 ==> a[k] < a[k + 1]
    requires forall m :: k < m <= from ==> a[m] >= a[m + 1]
    ensures Pivot(a, from) == k
    decreases from
  {
    if from > k {
      PivotIs(a, from - 1, k);
    }
  }

  // ---------------------------------------------------------------
  // The masks
  // ---------------------------------------------------------------

  /** The mask over seven cards that leaves out cards `i` and `j`. */
  function ZeroMask(i: int, j: int): seq<int>
  {
    seq(7, k requires 0 <= k < 7 => if k == i || k == j then 0 else 1)
  }

  predicate ValidPair(i: int, j: int)
  {
    0 <= i < j < 7
  }

  /** The pair of left-out positions after (i, j) in lexicographic order
      of the masks. */
  function NextPair(i: int, j: int): (int, int)
  {
    if j < 6 then (i, j + 1) else (i + 1, i + 2)
  }

  /** On a mask leaving out `i` and `j`, `next_permutation` moves to the
      mask of the next pair; from the last mask, 1111100, it wraps to the
      first and reports `false`. */
  lemma NextOfZeroMask(i: int, j: int)
    requires ValidPair(i, j)
    ensures (i, j) == (5, 6) ==> NextPermutation(ZeroMask(i, j)) == (ZeroMask(0, 1), false)
    ensures (i, j) != (5, 6) ==>
              NextPermutation(ZeroMask(i, j)) == (ZeroMask(NextPair(i, j).0, NextPair(i, j).1), true)
  {
    if j < 6 {
      StepWithinRow(i, j);
    } else if i < 5 {
      StepToNextRow(i);
    } else {
      StepFromLast();
    }
  }

  lemma StepWithinRow(i: int, j: int)
    requires 0 <= i < j < 6
    ensures NextPermutation(ZeroMask(i, j)) == (ZeroMask(i, j + 1), true)
  {
    var a := ZeroMask(i, j);
    PivotIs(a, 5, j);
    assert Successor(a, j, 6) == 6;
    SwapWithinRow(i, j);
  }

  lemma SwapWithinRow(i: int, j: int)
    requires 0 <= i < j < 6
    ensures SwapAndReverse(ZeroMask(i, j), j, 6) == ZeroMask(i, j + 1)
  {
    var a := ZeroMask(i, j);
    var b := a[j := a[6]][6 := a[j]];
    var r := SwapAndReverse(a, j, 6);
    forall k | 0 <= k < 7
      ensures r[k] == ZeroMask(i, j + 1)[k]
    {
      if k > j {
        assert r[k] == b[6 + j + 1 - k];
      }
    }
  }

  lemma StepToNextRow(i: int)
    requires 0 <= i < 5
    ensures NextPermutation(ZeroMask(i, 6)) == (ZeroMask(i + 1, i + 2), true)
  {
    var a := ZeroMask(i, 6);
    PivotIs(a, 5, i);
    SuccessorAtLastRow(i);
    SwapToNextRow(i);
  }

  /** In the mask that leaves out `i` and the last card, the entry to swap
      with the pivot `i` is the one just before the end. */
  lemma SuccessorAtLastRow(i: int)
    requires 0 <= i < 5
    ensures Successor(ZeroMask(i, 6), i, 6) == 5
  {
    var a := ZeroMask(i, 6);
    assert a[i] == 0 && a[i + 1] == 1 && a[5] == 1 && a[6] == 0;
    assert Successor(a, i, 6) == Successor(a, i, 5);
  }

  lemma SwapToNextRow(i: int)
    requires 0 <= i < 5
    ensures SwapAndReverse(ZeroMask(i, 6), i, 5) == ZeroMask(i + 1, i + 2)
  {
    var a := ZeroMask(i, 6);
    var b := a[i := a[5]][5 := a[i]];
    var r := SwapAndReverse(a, i, 5);
    forall k | 0 <= k < 7
      ensures r[k] == ZeroMask(i + 1, i + 2)[k]
    {
      if k > i {
        assert r[k] == b[6 + i + 1 - k];
      }
    }
  }

  lemma StepFromLast()
    ensures NextPermutation(ZeroMask(5, 6)) == (ZeroMask(0, 1), false)
  {
    var a := ZeroMask(5, 6);
    PivotIs(a, 5, -1);
    assert Reverse(a) == ZeroMask(0, 1);
  }

  // ---------------------------------------------------------------
  // The enumeration
  // ---------------------------------------------------------------

  /** The left-out pair of the `n`-th mask the loop visits: (0, 1) first,
      then each next pair. */
  function PairAt(n: nat): (int, int)
  {
    if n == 0 then (0, 1) else NextPair(PairAt(n - 1).0, PairAt(n - 1).1)
  }

  /** How many pairs come before (i, j) in lexicographic order: row `i`
      starts after the 6 + 5 + ... pairs that leave out a smaller first
      card. */
  function Index(i: int, j: int): int
  {
    var rowStart :=
      if i <= 0 then 0 else if i == 1 then 6 else if i == 2 then 11
      else if i == 3 then 15 else if i == 4 then 18 else 20;
    rowStart + j - i - 1
  }

  /** The 21 masks in the order the loop visits them. */
  function MaskAt(n: nat): seq<int>
  {
    ZeroMask(PairAt(n).0, PairAt(n).1)
  }

  /** The mask the loop starts from, {0,0,1,1,1,1,1}: the first mask of
      the walk, which leaves out the first two cards. */
  function Start(): (p: seq<int>)
    ensures p == ZeroMask(0, 1) && p == MaskAt(0)
  {
    [0, 0, 1, 1, 1, 1, 1]
  }

  /** The starting mask is the ascending arrangement of two zeros and
      five ones, so no arrangement of them comes before it and the walk
      starts at the first one. */
  lemma StartIsLeast(c: seq<int>)
    requires multiset(c) == multiset(Start())
    ensures multiset(Start()) == multiset{0, 0, 1, 1, 1, 1, 1}
    ensures NonDecreasing(Start())
    ensures !LexGreater(Start(), c)
  {
    NonDecreasingIsSmallest(Start(), c);
  }

  /** The first 21 steps stay inside the valid pairs, and step `n` is the
      pair whose position in lexicographic order is `n`. */
  lemma {:induction false} PairAtIsIndexed(n: nat)
    requires n < 21
    ensures ValidPair(PairAt(n).0, PairAt(n).1)
    ensures Index(PairAt(n).0, PairAt(n).1) == n
  {
    if n > 0 {
      PairAtIsIndexed(n - 1);
    }
  }

  /** Different pairs have different positions. */
  lemma IndexInjective(i: int, j: int, i': int, j': int)
    requires ValidPair(i, j) && ValidPair(i', j')
    requires Index(i, j) == Index(i', j')
    ensures i == i' && j == j'
  {
  }

  /** Every pair is visited: the pair at position Index(i, j) is (i, j). */
  lemma EveryPairVisited(i: int, j: int)
    requires ValidPair(i, j)
    ensures 0 <= Index(i, j) < 21
    ensures PairAt(Index(i, j)) == (i, j)
  {
    var n := Index(i, j);
    PairAtIsIndexed(n);
    IndexInjective(i, j, PairAt(n).0, PairAt(n).1);
  }

  /** The loop's walk: each of the first 20 calls of `next_permutation`
      moves to the next mask and reports `true`, and the 21st reports
      `false`. */
  lemma MaskWalk(n: nat)
    requires n < 21
    ensures n < 20 ==> NextPermutation(MaskAt(n)) == (MaskAt(n + 1), true)
    ensures n == 20 ==> !NextPermutation(MaskAt(n)).1
  {
    PairAtIsIndexed(n);
    var (i, j) := PairAt(n);
    if n < 20 {
      assert (i, j) != (5, 6);
      NextOfZeroMask(i, j);
    } else {
      IndexInjective(i, j, 5, 6);
      StepFromLast();
    }
  }

  /** The visited masks increase strictly in lexicographic order, so no
      mask is visited twice. */
  lemma {:induction false} MasksIncrease(m: nat, n: nat)
    requires m < n < 21
    ensures LexGreater(MaskAt(n), MaskAt(m))
    ensures MaskAt(n) != MaskAt(m)
    decreases n
  {
    MaskWalk(n - 1);
    if m < n - 1 {
      MasksIncrease(m, n - 1);
      LexTransitive(MaskAt(n), MaskAt(n - 1), MaskAt(m));
    }
    LexTrichotomy(MaskAt(n), MaskAt(m));
  }

  // ---------------------------------------------------------------
  // Picking cards
  // ---------------------------------------------------------------

  /** The number of selected (non-zero) positions of a mask. */
  function Ones(p: seq<int>): nat
  {
    if |p| == 0 then 0 else (if p[0] != 0 then 1 else 0) + Ones(p[1..])
  }

  /** The combination loop of `getBestHand`: position by position, the
      card is taken exactly when the mask is non-zero there. */
  function Pick(pool: seq<Card>, p: seq<int>): (combo: seq<Card>)
    requires |p| <= |pool|
    ensures |combo| == Ones(p)
  {
    if |p| == 0 then []
    else (if p[0] != 0 then [pool[0]] else []) + Pick(pool[1..], p[1..])
  }

  /** The cards left after leaving out positions `i` and `j`. */
  function Without(pool: seq<Card>, i: int, j: int): (rest: seq<Card>)
    requires 0 <= i < j < |pool|
    ensures |rest| == |pool| - 2
  {
    pool[..i] + pool[i + 1..j] + pool[j + 1..]
  }

  function AllOnes(n: nat): seq<int>
  {
    seq(n, _ => 1)
  }

  lemma {:induction false} PickAppend(pool: seq<Card>, p: seq<int>, q: seq<int>)
    requires |p| + |q| <= |pool|
    ensures Pick(pool, p + q) == Pick(pool, p) + Pick(pool[|p|..], q)
    decreases |p|
  {
    if |p| == 0 {
      assert p + q == q;
    } else {
      assert (p + q)[1..] == p[1..] + q;
      PickAppend(pool[1..], p[1..], q);
      assert pool[1..][|p| - 1..] == pool[|p|..];
    }
  }

  lemma {:induction false} PickAllOnes(pool: seq<Card>, n: nat)
    requires n <= |pool|
    ensures Pick(pool, AllOnes(n)) == pool[..n]
    decreases n
  {
    if n > 0 {
      assert AllOnes(n)[1..] == AllOnes(n - 1);
      PickAllOnes(pool[1..], n - 1);
      assert pool[..n] == [pool[0]] + pool[1..][..n - 1];
    }
  }

  /** A run of ones followed by a zero takes the run's cards and skips
      the next one. */
  lemma PickGap(pool: seq<Card>, n: nat, q: seq<int>)
    requires n + 1 + |q| <= |pool|
    ensures Pick(pool, AllOnes(n) + ([0] + q)) == pool[..n] + Pick(pool[n + 1..], q)
  {
    PickAppend(pool, AllOnes(n), [0] + q);
    PickAllOnes(pool, n);
    var tail := pool[n..];
    assert ([0] + q)[1..] == q;
    assert Pick(tail, [0] + q) == Pick(tail[1..], q);
    assert tail[1..] == pool[n + 1..];
  }

  /** The mask leaving out `i` and `j` picks the other five cards, in
      their original order. */
  lemma PickZeroMask(pool: seq<Card>, i: int, j: int)
    requires |pool| == 7 && ValidPair(i, j)
    ensures Pick(pool, ZeroMask(i, j)) == Without(pool, i, j)
  {
    var tail := AllOnes(j - i - 1) + ([0] + AllOnes(6 - j));
    ZeroMaskParts(i, j);
    PickGap(pool, i, tail);
    PickTail(pool, i, j);
  }

  /** After the first left-out card, the rest of the mask skips the second
      one. */
  lemma PickTail(pool: seq<Card>, i: int, j: int)
    requires |pool| == 7 && ValidPair(i, j)
    ensures Pick(pool[i + 1..], AllOnes(j - i - 1) + ([0] + AllOnes(6 - j))) == pool[i + 1..j] + pool[j + 1..]
  {
    var rest := pool[i + 1..];
    var last := rest[j - i..];
    assert last == pool[j + 1..] && |last| == 6 - j;
    PickGap(rest, j - i - 1, AllOnes(6 - j));
    PickAllOnes(last, 6 - j);
    assert last[..6 - j] == last;
    assert rest[..j - i - 1] == pool[i + 1..j];
  }

  lemma ZeroMaskParts(i: int, j: int)
    requires ValidPair(i, j)
    ensures ZeroMask(i, j) == AllOnes(i) + ([0] + (AllOnes(j - i - 1) + ([0] + AllOnes(6 - j))))
  {
    var r := AllOnes(i) + ([0] + (AllOnes(j - i - 1) + ([0] + AllOnes(6 - j))));
    forall k | 0 <= k < 7
      ensures r[k] == ZeroMask(i, j)[k]
    {
      if k > i {
        assert r[k] == (AllOnes(j - i - 1) + ([0] + AllOnes(6 - j)))[k - i - 1];
      }
    }
  }

  lemma {:induction false} OnesAppend(p: seq<int>, q: seq<int>)
    ensures Ones(p + q) == Ones(p) + Ones(q)
    decreases |p|
  {
    if |p| == 0 {
      assert p + q == q;
    } else {
      assert (p + q)[0] == p[0];
      assert (p + q)[1..] == p[1..] + q;
      OnesAppend(p[1..], q);
    }
  }

  lemma {:induction false} OnesOfAllOnes(n: nat)
    ensures Ones(AllOnes(n)) == n
  {
    if n > 0 {
      assert AllOnes(n)[1..] == AllOnes(n - 1);
      OnesOfAllOnes(n - 1);
    }
  }

  /** Every visited mask selects exactly five cards. */
  lemma MaskHasFiveOnes(n: nat)
    requires n < 21
    ensures Ones(MaskAt(n)) == 5
  {
    PairAtIsIndexed(n);
    var (i, j) := PairAt(n);
    ZeroMaskParts(i, j);
    var tail := AllOnes(j - i - 1) + ([0] + AllOnes(6 - j));
    OnesAppend(AllOnes(i), [0] + tail);
    OnesAppend([0], tail);
    OnesAppend(AllOnes(j - i - 1), [0] + AllOnes(6 - j));
    OnesAppend([0], AllOnes(6 - j));
    OnesOfAllOnes(i);
    OnesOfAllOnes(j - i - 1);
    OnesOfAllOnes(6 - j);
  }

  // ---------------------------------------------------------------
  // Completeness
  // ---------------------------------------------------------------

  function Shift(z: seq<int>): seq<int>
  {
    seq(|z|, k requires 0 <= k < |z| => z[k] + 1)
  }

  /** `z` lists, in increasing order, exactly the positions where the
      mask `p` is zero; together with the selected positions they account
      for the whole mask. */
  predicate ZerosOf(p: seq<int>, z: seq<int>)
  {
    && |z| + Ones(p) == |p|
    && (forall k :: 0 <= k < |p| ==> (p[k] == 0 <==> k in z))
    && (forall x :: x in z ==> 0 <= x < |p|)
    && (forall a, b :: 0 <= a < b < |z| ==> z[a] < z[b])
  }

  /** The positions where a mask is zero. */
  function ZeroPositions(p: seq<int>): (z: seq<int>)
    ensures ZerosOf(p, z)
  {
    if |p| == 0 then []
    else
      var tail := ZeroPositions(p[1..]);
      ZerosOfCons(p, tail);
      if p[0] == 0 then [0] + Shift(tail) else Shift(tail)
  }

  /** The zero positions of a mask follow from those of its tail: shift
      them up by one and add position 0 when the head is zero. */
  lemma ZerosOfCons(p: seq<int>, tail: seq<int>)
    requires |p| > 0 && ZerosOf(p[1..], tail)
    ensures ZerosOf(p, if p[0] == 0 then [0] + Shift(tail) else Shift(tail))
  {
    var rest := Shift(tail);
    ShiftMembers(tail);
    assert forall k :: 1 <= k < |p| ==> p[k] == p[1..][k - 1];
    assert forall t :: 0 <= t < |rest| ==> rest[t] == tail[t] + 1 && tail[t] in tail;
  }

  lemma ShiftMembers(z: seq<int>)
    ensures forall x :: x in Shift(z) <==> x - 1 in z
  {
    forall x
      ensures x in Shift(z) <==> x - 1 in z
    {
      if x - 1 in z {
        var t :| 0 <= t < |z| && z[t] == x - 1;
        assert Shift(z)[t] == x;
      }
    }
  }

  /** Every 0/1 mask over seven cards with five ones is one of the masks
      the loop visits. */
  lemma EveryMaskVisited(p: seq<int>)
    requires |p| == 7 && Ones(p) == 5
    requires forall k :: 0 <= k < 7 ==> p[k] == 0 || p[k] == 1
    ensures exists n :: 0 <= n < 21 && MaskAt(n) == p
  {
    var z := ZeroPositions(p);
    var i, j := z[0], z[1];
    assert i in z && j in z;
    forall k | 0 <= k < 7
      ensures p[k] == ZeroMask(i, j)[k]
    {
      if p[k] == 0 {
        assert k in z;
      }
    }
    assert p == ZeroMask(i, j);
    EveryPairVisited(i, j);
    assert MaskAt(Index(i, j)) == p;
  }
}

=== FILE: ordering.dfy ===
/** How evaluation results are compared: `EvalResult::operator>` orders by
    category first and then by the tie-break vector, which `std::vector`
    compares lexicographically; `EvalResult::operator==` is field-wise
    equality. */
module Ordering {
  import opened PokerTypes

  /** Lexicographic "greater" on integer sequences, the way `std::vector`'s
      `operator>` decides it: the first differing position decides, and a
      proper prefix is smaller than the longer sequence. */
  function LexGreater(a: seq<int>, b: seq<int>): (g: bool)
    ensures |b| < |a| && a[..|b|] == b ==> g
    ensures |a| <= |b| && b[..|a|] == a ==> !g
    decreases |a|
  {
    if |b| == 0 then |a| > 0
    else if |a| == 0 then false
    else if a[0] != b[0] then a[0] > b[0]
    else LexGreater(a[1..], b[1..])
  }

  /** `a` and `b` agree on their first `k` entries, and position `k` is
      where `a` wins: either both continue and `a` is larger there, or
      `b` has ended and `a` has not. */
  ghost predicate WinsAt(a: seq<int>, b: seq<int>, k: int)
  {
    && 0 <= k <= |a|
    && k <= |b|
    && a[..k] == b[..k]
    && ((k < |a| && k < |b| && a[k] > b[k]) || (k == |b| && k < |a|))
  }

  /** `LexGreater` holds exactly when there is a position where `a` wins
      after a common prefix. */
  lemma {:induction false} LexGreaterIffWinsAt(a: seq<int>, b: seq<int>)
    ensures LexGreater(a, b) <==> exists k :: WinsAt(a, b, k)
    decreases |a|
  {
    if |b| == 0 {
      if |a| > 0 {
        assert WinsAt(a, b, 0);
      }
    } else if |a| == 0 {
    } else if a[0] != b[0] {
      if a[0] > b[0] {
        assert WinsAt(a, b, 0);
      }
      forall k | WinsAt(a, b, k)
        ensures a[0] > b[0]
      {
        if k > 0 {
          assert a[..k][0] == b[..k][0];
        }
      }
    } else {
      LexGreaterIffWinsAt(a[1..], b[1..]);
      if LexGreater(a[1..], b[1..]) {
        var k :| WinsAt(a[1..], b[1..], k);
        assert a[..k + 1] == [a[0]] + a[1..][..k];
        assert b[..k + 1] == [b[0]] + b[1..][..k];
        assert WinsAt(a, b, k + 1);
      }
      forall k | WinsAt(a, b, k)
        ensures LexGreater(a[1..], b[1..])
      {
        assert k > 0;
        assert a[1..][..k - 1] == a[..k][1..];
        assert b[1..][..k - 1] == b[..k][1..];
        assert WinsAt(a[1..], b[1..], k - 1);
      }
    }
  }

  /** For any two sequences exactly one of `a > b`, `b > a`, `a == b`. */
  lemma {:induction false} LexTrichotomy(a: seq<int>, b: seq<int>)
    ensures LexGreater(a, b) || LexGreater(b, a) || a == b
    ensures !(LexGreater(a, b) && LexGreater(b, a))
    ensures a == b ==> !LexGreater(a, b)
    decreases |a|
  {
    if |a| > 0 && |b| > 0 && a[0] == b[0] {
      LexTrichotomy(a[1..], b[1..]);
      if a[1..] == b[1..] {
        assert a == [a[0]] + a[1..];
        assert b == [b[0]] + b[1..];
      }
    }
  }

  lemma {:induction false} LexTransitive(a: seq<int>, b: seq<int>, c: seq<int>)
    requires LexGreater(a, b) && LexGreater(b, c)
    ensures LexGreater(a, c)
    decreases |a|
  {
    if |c| > 0 && a[0] == b[0] && b[0] == c[0] {
      LexTransitive(a[1..], b[1..], c[1..]);
    }
  }

  /** `EvalResult::operator>`: a higher category always wins and a
      lower one always loses; no result is greater than itself. */
  function Greater(x: EvalResult, y: EvalResult): (g: bool)
    ensures Ordinal(x.handRank) > Ordinal(y.handRank) ==> g
    ensures Ordinal(x.handRank) < Ordinal(y.handRank) ==> !g
    ensures x == y ==> !g
  {
    if x.handRank != y.handRank then Ordinal(x.handRank) > Ordinal(y.handRank)
    else LexGreater(x.values, y.values)
  }

  /** `EvalResult::operator==`: the field-wise test is exactly value
      equality of results. */
  function Same(x: EvalResult, y: EvalResult): (same: bool)
    ensures same <==> x == y
  {
    x.handRank == y.handRank && x.values == y.values
  }

  /** Different categories: the category alone decides, whatever the
      tie-break vectors hold. */
  lemma CategoryDecides(h1: HandRank, v1: seq<int>, h2: HandRank, v2: seq<int>, w1: seq<int>, w2: seq<int>)
    requires h1 != h2
    ensures Greater(EvalResult(h1, v1), EvalResult(h2, v2)) <==> Ordinal(h1) > Ordinal(h2)
    ensures Greater(EvalResult(h1, v1), EvalResult(h2, v2)) == Greater(EvalResult(h1, w1), EvalResult(h2, w2))
  {
  }

  /** Same category: the result is the lexicographic comparison of the
      tie-break vectors, i.e. the first differing entry decides. */
  lemma SameCategoryIsLexicographic(x: EvalResult, y: EvalResult)
    requires x.handRank == y.handRank
    ensures Greater(x, y) <==> exists k :: WinsAt(x.values, y.values, k)
  {
    LexGreaterIffWinsAt(x.values, y.values);
  }

  /** Exactly one of `x > y`, `y > x`, `x == y` holds. */
  lemma GreaterTrichotomy(x: EvalResult, y: EvalResult)
    ensures Greater(x, y) || Greater(y, x) || x == y
    ensures !(Greater(x, y) && Greater(y, x))
    ensures x == y ==> !Greater(x, y)
  {
    LexTrichotomy(x.values, y.values);
    if x.handRank != y.handRank {
      assert Ordinal(x.handRank) != Ordinal(y.handRank) by {
        OrdinalsFollowDeclarationOrder();
      }
    }
  }

  lemma GreaterTransitive(x: EvalResult, y: EvalResult, z: EvalResult)
    requires Greater(x, y) && Greater(y, z)
    ensures Greater(x, z)
  {
    if x.handRank == y.handRank == z.handRank {
      LexTransitive(x.values, y.values, z.values);
    }
  }

  /** "Not greater" is transitive as well: `y >= x` and `z >= y` give `z >= x`. */
  lemma NotGreaterTransitive(x: EvalResult, y: EvalResult, z: EvalResult)
    requires !Greater(x, y) && !Greater(y, z)
    ensures !Greater(x, z)
  {
    GreaterTrichotomy(x, y);
    GreaterTrichotomy(y, z);
    GreaterTrichotomy(x, z);
    if Greater(x, z) {
      if x == y {
      } else if y == z {
      } else {
        GreaterTransitive(z, y, x);
      }
    }
  }
}

=== FILE: sorting.dfy ===
/** The first step of `evaluateHand`: the five cards are sorted by rank,
    highest first. `std::sort` is not stable, so the order of equal-rank
    cards is unspecified; the model sorts by insertion and proves that the
    rank sequence of ANY descending arrangement of the same cards is the
    same, so nothing downstream can observe which one was chosen. */
module RankSort {
  import opened PokerTypes

  /** The ranks of the cards, in order. */
  function Ranks(cards: seq<Card>): seq<int>
  {
    seq(|cards|, i requires 0 <= i < |cards| => cards[i].rank)
  }

  predicate Descending(rs: seq<int>)
  {
    forall i, j :: 0 <= i < j < |rs| ==> rs[i] >= rs[j]
  }

  predicate SortedByRankDesc(cards: seq<Card>)
  {
    forall i, j :: 0 <= i < j < |cards| ==> cards[i].rank >= cards[j].rank
  }

  function InsertByRank(c: Card, s: seq<Card>): (r: seq<Card>)
    requires SortedByRankDesc(s)
    ensures |r| == |s| + 1
    ensures SortedByRankDesc(r)
    ensures multiset(r) == multiset(s) + multiset{c}
  {
    if |s| == 0 || c.rank >= s[0].rank then [c] + s
    else
      var rest := InsertByRank(c, s[1..]);
      assert s == [s[0]] + s[1..];
      HeadAboveInsert(c, s, rest);
      [s[0]] + rest
  }

  /** The head of a sorted sequence stays in front of anything inserted
      after it. */
  lemma HeadAboveInsert(c: Card, s: seq<Card>, rest: seq<Card>)
    requires |s| > 0 && SortedByRankDesc(s) && c.rank < s[0].rank
    requires SortedByRankDesc(rest) && multiset(rest) == multiset(s[1..]) + multiset{c}
    ensures SortedByRankDesc([s[0]] + rest)
  {
    forall k | 0 <= k < |rest|
      ensures s[0].rank >= rest[k].rank
    {
      assert rest[k] in multiset(rest);
      if rest[k] != c {
        assert rest[k] in multiset(s[1..]);
        var t :| 0 <= t < |s[1..]| && s[1..][t] == rest[k];
        assert s[t + 1] == rest[k];
      }
    }
    var r := [s[0]] + rest;
    forall a, b | 0 <= a < b < |r|
      ensures r[a].rank >= r[b].rank
    {
      if a > 0 {
        assert r[a] == rest[a - 1] && r[b] == rest[b - 1];
      } else {
        assert r[b] == rest[b - 1];
      }
    }
  }

  /** The cards rearranged so that ranks never increase. */
  function SortByRank(cards: seq<Card>): (r: seq<Card>)
    ensures |r| == |cards|
    ensures SortedByRankDesc(r)
    ensures multiset(r) == multiset(cards)
  {
    if |cards| == 0 then []
    else
      assert cards == [cards[0]] + cards[1..];
      InsertByRank(cards[0], SortByRank(cards[1..]))
  }

  lemma SortedRanksDescend(cards: seq<Card>)
    requires SortedByRankDesc(cards)
    ensures Descending(Ranks(cards))
  {
  }

  lemma RanksAppend(a: seq<Card>, b: seq<Card>)
    ensures Ranks(a + b) == Ranks(a) + Ranks(b)
  {
  }

  /** Rearranging cards rearranges their ranks: equal card multisets give
      equal rank multisets. */
  lemma {:induction false} RanksOfPermutation(p: seq<Card>, q: seq<Card>)
    requires multiset(p) == multiset(q)
    ensures multiset(Ranks(p)) == multiset(Ranks(q))
    decreases |p|
  {
    if |p| > 0 {
      var c := p[0];
      assert c in multiset(q);
      var k :| 0 <= k < |q| && q[k] == c;
      var q' := q[..k] + q[k + 1..];
      assert q == q[..k] + [c] + q[k + 1..];
      assert p == [c] + p[1..];
      assert multiset(q) == multiset(q[..k]) + multiset{c} + multiset(q[k + 1..]);
      assert multiset(p) == multiset{c} + multiset(p[1..]);
      assert multiset(q') == multiset(q) - multiset{c};
      assert multiset(p[1..]) == multiset(p) - multiset{c};
      RanksOfPermutation(p[1..], q');
      RanksAppend(q[..k] + [c], q[k + 1..]);
      RanksAppend(q[..k], [c]);
      RanksAppend(q[..k], q[k + 1..]);
      RanksAppend([c], p[1..]);
    }
  }

  /** A multiset of integers has exactly one descending arrangement. */
  lemma {:induction false} DescendingUnique(a: seq<int>, b: seq<int>)
    requires Descending(a) && Descending(b)
    requires multiset(a) == multiset(b)
    ensures a == b
    decreases |a|
  {
    if |a| > 0 {
      UniqueHead(a, b);
      DescendingUnique(a[1..], b[1..]);
      assert a == [a[0]] + a[1..];
      assert b == [b[0]] + b[1..];
    } else {
      assert |multiset(b)| == 0;
    }
  }

  /** Two descending arrangements of one multiset start alike, and their
      tails are again descending arrangements of one multiset. */
  lemma UniqueHead(a: seq<int>, b: seq<int>)
    requires Descending(a) && Descending(b)
    requires multiset(a) == multiset(b) && |a| > 0
    ensures |b| > 0 && a[0] == b[0]
    ensures Descending(a[1..]) && Descending(b[1..])
    ensures multiset(a[1..]) == multiset(b[1..])
  {
    HeadIsLargest(b, a[0]);
    HeadIsLargest(a, b[0]);
    TailMultiset(a);
    TailMultiset(b);
    DescendingTail(a);
    DescendingTail(b);
  }

  lemma DescendingTail(a: seq<int>)
    requires |a| > 0 && Descending(a)
    ensures Descending(a[1..])
  {
  }

  /** The head of a descending sequence is at least every element. */
  lemma HeadIsLargest(a: seq<int>, x: int)
    requires Descending(a) && x in multiset(a)
    ensures |a| > 0 && x <= a[0]
  {
    var k :| 0 <= k < |a| && a[k] == x;
    assert k == 0 || a[0] >= a[k];
  }

  /** Dropping the head removes one copy of it from the multiset. */
  lemma TailMultiset(a: seq<int>)
    requires |a| > 0
    ensures multiset(a[1..]) == multiset(a) - multiset{a[0]}
  {
    assert a == [a[0]] + a[1..];
  }

  /** Whatever order `std::sort` leaves equal-rank cards in, the rank
      sequence of the sorted hand is the same. */
  lemma SortedRanksUnique(s: seq<Card>, t: seq<Card>)
    requires SortedByRankDesc(s) && SortedByRankDesc(t)
    requires multiset(s) == multiset(t)
    ensures Ranks(s) == Ranks(t)
  {
    RanksOfPermutation(s, t);
    SortedRanksDescend(s);
    SortedRanksDescend(t);
    DescendingUnique(Ranks(s), Ranks(t));
  }
}

=== FILE: types.dfy ===
/** The value types of the poker evaluator: suits, ranks, cards, hand
    categories and the evaluation result that hands are compared by. */
module PokerTypes {

  /** The four suits. The C++ enum gives them the values Spades = 4,
      Hearts = 3, Diamonds = 2, Clubs = 1; the evaluator only ever compares
      suits for equality. */
  datatype Suit = Spades | Hearts | Diamonds | Clubs

  /** The value the C++ enum assigns to each suit. Nothing in the
      evaluator reads it; it is kept only to record the enum, and
      `SuitValueInjective` shows that comparing values is comparing
      suits. */
  function SuitValue(s: Suit): (v: int)
    ensures 1 <= v <= 4
  {
    match s
    case Spades => 4
    case Hearts => 3
    case Diamonds => 2
    case Clubs => 1
  }

  lemma SuitValueInjective(a: Suit, b: Suit)
    ensures SuitValue(a) == SuitValue(b) <==> a == b
  {
  }

  /** A rank is a plain integer. Two = 2 through Ace = 14 are the named
      values, but the lenient parser can produce any integer. */
  type Rank = int

  const Two: Rank := 2
  const Five: Rank := 5
  const Ten: Rank := 10
  const Jack: Rank := 11
  const Queen: Rank := 12
  const King: Rank := 13
  const Ace: Rank := 14

  datatype Card = Card(suit: Suit, rank: Rank)

  /** `Card::operator<`: cards are ordered by rank alone. */
  predicate CardLess(a: Card, b: Card)
  {
    a.rank < b.rank
  }

  /** `CardLess` is a strict weak ordering whose incomparable cards are
      exactly the cards of equal rank, whatever their suits. */
  lemma CardLessIsStrictWeakOrder(a: Card, b: Card, c: Card)
    ensures !CardLess(a, a)
    ensures CardLess(a, b) && CardLess(b, c) ==> CardLess(a, c)
    ensures !CardLess(a, b) && !CardLess(b, a) <==> a.rank == b.rank
  {
  }

  /** The ten hand categories, weakest first. */
  datatype HandRank =
    | HighCard
    | OnePair
    | TwoPair
    | ThreeOfAKind
    | Straight
    | Flush
    | FullHouse
    | FourOfAKind
    | StraightFlush
    | RoyalFlush

  /** The categories in declaration order. */
  const AllHandRanks: seq<HandRank> :=
    [HighCard, OnePair, TwoPair, ThreeOfAKind, Straight,
     Flush, FullHouse, FourOfAKind, StraightFlush, RoyalFlush]

  /** The enum value of a category: HighCard = 1 up to RoyalFlush = 10. */
  function Ordinal(h: HandRank): (n: int)
    ensures 1 <= n <= 10
  {
    match h
    case HighCard => 1
    case OnePair => 2
    case TwoPair => 3
    case ThreeOfAKind => 4
    case Straight => 5
    case Flush => 6
    case FullHouse => 7
    case FourOfAKind => 8
    case StraightFlush => 9
    case RoyalFlush => 10
  }

  /** Every category is listed once, and the ordinals count up from 1 in
      declaration order, so they increase strictly. */
  lemma OrdinalsFollowDeclarationOrder()
    ensures |AllHandRanks| == 10
    ensures forall h: HandRank :: h in AllHandRanks
    ensures forall i :: 0 <= i < |AllHandRanks| ==> Ordinal(AllHandRanks[i]) == i + 1
    ensures forall i, j :: 0 <= i < j < |AllHandRanks| ==>
              Ordinal(AllHandRanks[i]) < Ordinal(AllHandRanks[j])
  {
    forall h: HandRank
      ensures h in AllHandRanks
    {
      assert AllHandRanks[Ordinal(h) - 1] == h;
    }
  }

  /** The result of evaluating five cards: a category and the tie-break
      ranks that are compared when the categories agree. */
  datatype EvalResult = EvalResult(handRank: HandRank, values: seq<int>)
}
